=== FILE: README.md ===
# World inventory groups

A Dafny model of the world-group registry of the MyWorlds plugin
(`WorldInventory`). The registry splits world names into disjoint groups. Every
group has a canonical ("shared") world whose folder holds the player data of
all its members. The model covers the following:

- moving worlds between groups with `addWithoutSaving` and
  `removeWithoutSaving`, which drop emptied groups and mint singleton groups;
- the public operations `create`, `add`, `remove`, `merge` and `detach`;
- canonical-world resolution through both `getSharedWorldName` overloads;
- what `save` writes to `inventories.yml` and how `load` reads it back.

The process-wide static state becomes an immutable `Registry` value
(`inventories.dfy`). It has five parts:

- `arena` holds every group ever constructed, indexed by the counter value at
  its construction;
- `live` is the static `inventories` set;
- `binding` is the `WorldConfig.inventory` back-reference, keyed by the
  lower-cased world name;
- `counter` mints the default names `"inv" + counter`;
- `loaded` gates every save.

Groups dropped from `live` stay in the arena, because a world can stay bound to
a group after that group left the live set. Every operation threads this value
through.

Folder existence is a parameter: `folders` is the set of world names whose
folder exists. Iteration over a `HashSet` has no specified order, so the model
picks an arbitrary remaining element with `:|`. Every postcondition holds for
every order.

The files:

- `strings.dfy`: ASCII lower-casing (`Lower`) and the decimal rendering of the
  counter, with an injectivity proof.
- `inventories.dfy`: the registry, its invariant `Inv` and the constructor.
  `Inv` makes member sets pairwise disjoint: every member is stored lower-cased
  and bound to the group that holds it.
- `groups.dfy`: the per-group operations. These are canonical resolution,
  `removeWithoutSaving` (with its `createNew` branch) and `addWithoutSaving`,
  plus the add loop that `merge` and `load` share.
- `persistence.dfy`: the document `save` writes, including its key-naming
  rule. A pigeonhole argument shows that a free key is always found.
- `operations.dfy`: `create`, `add`, `remove`, `merge`, `detach` and `load`.
  Each is followed by the `save()` it triggers. `written` is the document a
  call writes, or None when it writes nothing.
- `roundtrip.dfy`: saving and then loading into a fresh registry. Every saved
  group that has a canonical world comes back with the same members and
  canonical world, under the key it was saved with.

Two behaviours of the source are kept as written.

1. `addWithoutSaving` first removes the world from the group it is bound to,
   even when that group is the target. Re-adding the only member of a group
   therefore drops the group from the live set while the group keeps the
   member (`AddCanonical`).
2. In the `createNew` branch of `removeWithoutSaving`, the fresh singleton's
   add re-enters `removeWithoutSaving` on the old group. The second settling
   step that follows provably changes nothing (`SettleTwice`).

Consequences the contracts make visible:

- Suppose `remove` takes away a group's canonical world and no other member
  has a folder. The group then leaves the live set, and its remaining members
  stay bound to it.
- `merge` can leave the new group without a canonical world when no listed
  world has a folder. `save` then writes a section without a folder, and
  `load` skips that section, so that group does not survive a save and load.
- A world that is bound to a group but is not one of its members (after
  `remove`) gets no singleton from `detach`.

## Model

| member | source | states |
|---|---|---|
| Inventories.Empty | src/main/java/com/bergerkiller/bukkit/mw/WorldInventory.java:14-16 | the initial state has no live group, is not loaded, and satisfies the registry invariant |
| Inventories.Construct | src/main/java/com/bergerkiller/bukkit/mw/WorldInventory.java:110-114 | the constructor registers a new live group under an id no group had, names it "inv" followed by the counter, stores the given canonical world, advances the counter, and keeps the invariant |
| Inventories.MembersDisjoint | src/main/java/com/bergerkiller/bukkit/mw/WorldInventory.java:154-156 | under the invariant, a world that two groups contain (compared lower-cased) makes them the same group, and the world is bound to it |
| Inventories.RequiredSavingShares | src/main/java/com/bergerkiller/bukkit/mw/WorldInventory.java:126-128 | `IsRequiredSaving`, the model of `isRequiredSaving()`, holds exactly when the group holds two different worlds |
| Inventories.ContainsUpToCase | src/main/java/com/bergerkiller/bukkit/mw/WorldInventory.java:154-156 | `Contains`, the model of `contains`, answers whether some member equals the world up to case, for a group whose members are stored lower-cased as the registry invariant keeps them |
| Inventories.SettleTwice | src/main/java/com/bergerkiller/bukkit/mw/WorldInventory.java:176-185 | after a world has left a group, a second emptied-or-canonical check for that world changes nothing more, because a re-resolved canonical is a lower-cased member |
| Groups.SharedWorldName | src/main/java/com/bergerkiller/bukkit/mw/WorldInventory.java:145-152 | the answer is a member whose folder exists, and it is none exactly when no member's folder exists |
| Groups.GetSharedWorldName | src/main/java/com/bergerkiller/bukkit/mw/WorldInventory.java:135-143 | a set canonical world whose folder exists is returned with nothing changed; otherwise the canonical is re-resolved over the members and stored, and the call fails with NoValidStorageLocation exactly when nothing qualifies |
| Groups.Settle | src/main/java/com/bergerkiller/bukkit/mw/WorldInventory.java:176-185 | an emptied group leaves the live set; a group whose canonical world equals the world up to case re-resolves it and leaves the live set when no member qualifies; nothing else changes; the answer says whether either case applied |
| Groups.RemoveWithoutSaving | src/main/java/com/bergerkiller/bukkit/mw/WorldInventory.java:166-187 | the lower-cased world leaves the members; emptied or canonical-less groups are settled as above; the answer is false exactly when the world was no member, the group is non-empty and the world is not its canonical; with createNew a member world moves to a fresh live singleton whose canonical is the world; other groups are untouched |
| Groups.MoveToSingleton | src/main/java/com/bergerkiller/bukkit/mw/WorldInventory.java:168-174 | the createNew branch: the old group ends as a plain removal would leave it, and the world is the only member of a new live group named by the counter, bound to it, with itself as canonical |
| Groups.Rehome | src/main/java/com/bergerkiller/bukkit/mw/WorldInventory.java:172-173 | constructing the singleton and adding the world to it settles the old group once, as the re-entered removal does |
| Groups.AddWithoutSaving | src/main/java/com/bergerkiller/bukkit/mw/WorldInventory.java:195-206 | the world ends lower-cased in the group and bound to it; the group it was bound to loses it as removeWithoutSaving describes; no other group changes; a missing canonical is resolved over the new members, a canonical other than the world is kept, and one equal to the world up to case is kept or re-resolved; the group's liveness is kept unless the world was already bound to it, in which case the group stays live exactly when it was live, has another member and, when the world was its canonical, another member has a folder, so re-adding the only member drops the group from the live set |
| Groups.Unbind | src/main/java/com/bergerkiller/bukkit/mw/WorldInventory.java:196-199 | only the group the world was bound to changes, as removeWithoutSaving describes, and afterwards no group holds the world |
| Groups.AddAll | src/main/java/com/bergerkiller/bukkit/mw/WorldInventory.java:103-105 | adding listed worlds one by one leaves the group with exactly its old members plus the listed ones, all bound to it, and every other group without them; a valid canonical stays valid; distinct worlds not yet bound to the group leave its liveness and canonical alone, and when the group had no canonical and no member with a folder, its canonical becomes the lower-cased first listed world whose folder exists; every other group a listed world was bound to keeps its name and only loses members: when none of those worlds was its canonical up to case it keeps its canonical world and stays live exactly when it was live and is not emptied, when one was and members remain its canonical world is re-resolved over them and it stays live exactly when it was live and one has a folder, and an emptied group leaves the live set |
| Groups.DrainedStep | src/main/java/com/bergerkiller/bukkit/mw/WorldInventory.java:176-185 | one more removal from a group keeps it settled: the settling of the removal composes with the settling of the removals before it, and the group counts as hit once a removed world was its original canonical world up to case |
| Groups.DrainsAt | src/main/java/com/bergerkiller/bukkit/mw/WorldInventory.java:196-199 | an add step keeps settled a group that a world added so far, or the added world itself, was bound to: the group counts as hit once one of those worlds was its original canonical world up to case |
| Groups.FirstWithFolder | src/main/java/com/bergerkiller/bukkit/mw/WorldInventory.java:145-152 | the answer is none exactly when no listed world has a folder; otherwise it is the lower-cased listed world with a folder that comes before every other listed world with one |
| Groups.FirstStep | src/main/java/com/bergerkiller/bukkit/mw/WorldInventory.java:202-204 | a group without a canonical world and with no member whose folder exists takes the next added world as canonical exactly when its folder exists and no earlier added world had one |
| Persistence.KeyFor | src/main/java/com/bergerkiller/bukkit/mw/WorldInventory.java:76-82 | the key is the group name when its lower-case form is unused, otherwise the name followed by the smallest index from 0 whose lower-case form is unused; the chosen key is unused |
| Persistence.FirstFreeIndex | src/main/java/com/bergerkiller/bukkit/mw/WorldInventory.java:80-81 | the suffix search stops at the first free index and needs at most as many tries as keys are already used, so the Integer.MAX_VALUE bound is never reached first |
| Persistence.Pigeonhole | src/main/java/com/bergerkiller/bukkit/mw/WorldInventory.java:80 | n used keys can block at most n suffixed candidates, since different indices give different lower-cased keys |
| Strings.SuffixInjective | src/main/java/com/bergerkiller/bukkit/mw/WorldInventory.java:81 | the name followed by i and the name followed by j are equal up to case only when i equals j |
| Persistence.KeyCollisionExample | src/main/java/com/bergerkiller/bukkit/mw/WorldInventory.java:79-82 | two groups named "inv" are written under the keys "inv" and "inv0" |
| Persistence.ListOf | src/main/java/com/bergerkiller/bukkit/mw/WorldInventory.java:85 | the worlds list holds every member exactly once |
| Persistence.Save | src/main/java/com/bergerkiller/bukkit/mw/WorldInventory.java:69-89 | nothing is written before the first load; otherwise exactly the live groups with more than one member get one section each, holding the canonical world as folder and every member once, under keys chosen by the naming rule and pairwise distinct up to case |
| Operations.Create | src/main/java/com/bergerkiller/bukkit/mw/WorldInventory.java:25-27 | the new group is live, has the next default name, holds exactly the lower-cased world, keeps the world as canonical and is the world's binding; the previous group loses the world; then the registry is saved |
| Operations.Add | src/main/java/com/bergerkiller/bukkit/mw/WorldInventory.java:189-193 | addWithoutSaving's effect (the old group settled, the target's canonical world and liveness as stated for AddWithoutSaving), after which the group contains the world and the world is bound to it, followed by a save |
| Operations.Remove | src/main/java/com/bergerkiller/bukkit/mw/WorldInventory.java:158-164 | removeWithoutSaving without createNew: the group no longer contains the world, bindings stay, and a save happens exactly when the answer is true |
| Operations.Merge | src/main/java/com/bergerkiller/bukkit/mw/WorldInventory.java:100-108 | an empty list changes and writes nothing; otherwise a new group holds exactly the lower-cased listed worlds, all bound to it, with a canonical resolved over them; every other group loses exactly those worlds, and a group no listed world was bound to is unchanged, canonical world and liveness included; a group some were bound to is settled as AddAll states; no group becomes live except the new one; with names distinct up to case the new group is live and its canonical world is the lower-cased first listed world whose folder exists, or none when no folder exists; then the registry is saved |
| Operations.Detach | src/main/java/com/bergerkiller/bukkit/mw/WorldInventory.java:91-98 | an empty list changes and writes nothing; otherwise every group that existed loses exactly the listed worlds, every listed world that was grouped is the only member of a new live group whose canonical is that world up to case, every grouped world stays grouped, a world that is not listed keeps its binding, a group no listed world was bound to is unchanged, canonical world and liveness included, and one save follows |
| Operations.DetachWorld | src/main/java/com/bergerkiller/bukkit/mw/WorldInventory.java:94 | one detach step is removeWithoutSaving with createNew on the group the world is bound to |
| Operations.DetachedStep | src/main/java/com/bergerkiller/bukkit/mw/WorldInventory.java:93-95 | each detach step keeps the state described for the worlds detached so far and extends it to the next world |
| Operations.DetachKeptStep | src/main/java/com/bergerkiller/bukkit/mw/WorldInventory.java:93-95 | a detach step rebinds only the world it detaches, and only to a group that did not exist before, and leaves alone every group that no world detached so far was bound to |
| Operations.LoadSection | src/main/java/com/bergerkiller/bukkit/mw/WorldInventory.java:54-60 | an accepted section yields a new group named after its key that holds exactly the lower-cased listed worlds, all bound to it, and takes them from every other group; a group none of the listed worlds was bound to is unchanged, and one some were bound to is settled as AddAll states, with no group but the new one becoming live; with distinct names the group is live and keeps the section folder as canonical |
| Operations.Accepted | src/main/java/com/bergerkiller/bukkit/mw/WorldInventory.java:44-52 | only sections with a folder and a non-empty worlds list are read, in document order |
| Operations.LoadStep | src/main/java/com/bergerkiller/bukkit/mw/WorldInventory.java:44-61 | reading one more section keeps the load state: new groups carry their section keys and hold exactly the worlds no later section lists, worlds sit in the group of the last section listing them, only listed worlds are bound to new groups, groups of sections that repeat no world and share none with a later section stay live with their folder, and the old groups lose every listed world and are settled as AddAll states, for all sections read so far together |
| Operations.LoadedKeptStep | src/main/java/com/bergerkiller/bukkit/mw/WorldInventory.java:54-60 | a later section leaves alone every new group that shares no world with it, so the group of a section that repeats no world and shares none with a later section stays live and keeps its folder as canonical |
| Operations.LoadedReboundStep | src/main/java/com/bergerkiller/bukkit/mw/WorldInventory.java:56-60 | after one more section every listed world is bound to one of the new groups and every other world keeps the binding it had before the load |
| Operations.LoadedSparedStep | src/main/java/com/bergerkiller/bukkit/mw/WorldInventory.java:56-60 | a group that existed before the load and that no world of the sections read so far was bound to is still exactly as it was, liveness included |
| Operations.LoadedDrainsStep | src/main/java/com/bergerkiller/bukkit/mw/WorldInventory.java:54-60 | the settling of the groups that existed before the load composes across sections: a group that earlier sections and the next one reach is settled for all of them together |
| Operations.RequiresSavingWrites | src/main/java/com/bergerkiller/bukkit/mw/WorldInventory.java:32-39 | `RequiresSaving`, the test `load` makes before reading, holds exactly when a save of the registry as it was would write at least one section |
| Operations.Load | src/main/java/com/bergerkiller/bukkit/mw/WorldInventory.java:29-67 | the registry is marked loaded; the k-th accepted section becomes the group with the k-th new id, named after its key, holding exactly the listed worlds no later accepted section lists; each listed world is bound to and held by the group of the last section listing it, and no other world is bound to a new group; a section that repeats no world and shares none with a later one gives a live group whose canonical is its folder; groups that existed before lose every listed world; a world no accepted section lists keeps its binding, and a group no listed world was bound to is unchanged, canonical world and liveness included; a group that existed and that listed worlds were bound to keeps its canonical world and stays live exactly when it was live and is not emptied when none of them was its canonical up to case, otherwise has its canonical world re-resolved over its remaining members and stays live exactly when it was live and one has a folder, and leaves the live set when emptied; a save follows exactly when some live group had more than one member before the load |
| Persistence.SavedWorlds | src/main/java/com/bergerkiller/bukkit/mw/WorldInventory.java:78-86 | the written document lists a world exactly when the world is a member of a live group with more than one member, so a singleton group leaves no trace |
| RoundTrip.SavedSeparate | src/main/java/com/bergerkiller/bukkit/mw/WorldInventory.java:78-86 | in the written document no section repeats a world and no two sections share one |
| RoundTrip.AcceptedSeparate | src/main/java/com/bergerkiller/bukkit/mw/WorldInventory.java:44-52 | skipping sections without a folder or worlds keeps that property |
| RoundTrip.LoadedSeparate | src/main/java/com/bergerkiller/bukkit/mw/WorldInventory.java:44-61 | loading sections that share no world gives each its own live group: named after the key, holding exactly the listed worlds, with the folder as canonical |
| RoundTrip.SaveThenLoad | src/main/java/com/bergerkiller/bukkit/mw/WorldInventory.java:29-89 | loading the document save writes into a fresh registry restores every saved group that has a canonical world: a live group with the same members and canonical world, named by the key it was saved under |

## Left out

- Reading and writing `inventories.yml` is not modelled. The document is a value: `Load` takes it and `Save` returns it. The order of `config.getNodes()` is taken to be the document order.
- Folder existence (`WorldUtil.getWorldFolder`, `WorldConfig.getWorldFolder`) is the parameter `folders`.
- `WorldConfig.get(name).worldname` is taken to be the name passed in. `WorldConfig.get` is taken to find a world by its lower-cased name, so `binding` is keyed by `Lower`.
- `toLowerCase` is ASCII lower-casing; locale rules are not modelled.
- Inventories.Construct: the counter is an unbounded natural number, so the wrap-around of Java's `int` after 2^31 constructions is not modelled.
- The `Integer.MAX_VALUE` bound of the suffix loop in `save` is not modelled. `FirstFreeIndex` shows the loop stops after at most as many tries as there are sections, far below that bound.
- `HashSet` iteration order is an arbitrary choice. `Save` returns the visiting order it used, and the `worlds` list is compared as a set.
- The `RuntimeException` of `getSharedWorldName()` is the `Failure(NoValidStorageLocation)` result.
- Operations.Detach: requires every listed world to be bound to a group. The source dereferences `WorldConfig.get(world).inventory` without a null check, so an unbound world throws a `NullPointerException`.
- Operations.Detach: does not state the liveness or the canonical world of the groups the listed worlds left. Each step's effect on them is stated by `RemoveWithoutSaving`.
- Groups.AddAll: does not state the canonical world of another group that the added worlds empty. That group leaves the live set. Its canonical world is the original one, or the one set by the last re-resolution before the group emptied; stating which would mean tracking the order of the removals.
- Operations.Merge: does not state the canonical world of a group that the merge empties. That group leaves the live set, and its canonical world is the one the last re-resolution before it emptied set, or the original one when none happened.
- Operations.Load: does not state the canonical world of a group that existed before and is emptied by the load. That group leaves the live set, and its canonical world is the one the last re-resolution before it emptied set, or the original one when none happened. For a group made by an earlier section that a later section takes worlds from, only its name, key and remaining members are stated.
- Operations.LoadSection: states the canonical world and liveness of the new group only when the listed names are distinct up to case. A repeated name re-enters `removeWithoutSaving` on the new group itself.
- Operations.Merge: states the liveness and the canonical world of the new group only when the listed names are distinct up to case, for the same reason. Otherwise it only states that the canonical world is a member whose folder exists, or none when no member has one.
- The accessors `getAll` and `getWorlds` only expose state and are not modelled as operations.
- Concurrency is not modelled; the source assumes a single server thread.

=== FILE: collections.dfy ===
/** Small facts about sequences used as unordered lists. */
module Collections {

  /** The elements of a sequence, forgetting order and multiplicity. */
  function Elems<T(!new)>(xs: seq<T>): (r: set<T>)
    ensures forall x :: x in r <==> x in xs
  {
    set x | x in xs
  }

  /** No element occurs twice. */
  predicate Distinct<T(==)>(xs: seq<T>) {
    forall i, j :: 0 <= i < j < |xs| ==> xs[i] != xs[j]
  }
}

=== FILE: groups.dfy ===
/** The per-group operations of WorldInventory: canonical-world resolution and
    moving a world into or out of a group without saving.

    Folder existence is the parameter `folders`: the set of world names whose
    world folder exists at the time of the call. Iteration over a `HashSet`
    happens in an unspecified order, so it is modelled by picking an arbitrary
    remaining element with `:|`; every postcondition holds whatever order is taken.
 */
module Groups {
  import opened Wrappers
  import opened Strings
  import opened Inventories

  /** The error `getSharedWorldName` raises when no member has a world folder. */
  datatype StorageError = NoValidStorageLocation

  /** The static `getSharedWorldName(worlds)`: scans the worlds in iteration order and
      answers the first one whose folder exists, or nothing. */
  method SharedWorldName(ws: set<string>, folders: set<string>) returns (r: Option<string>)
    ensures Resolves(r, ws, folders)
  {
    var pending := ws;
    while pending != {}
      invariant pending <= ws
      invariant forall x :: x in ws - pending ==> x !in folders
      decreases pending
    {
      var w :| w in pending;
      if w in folders {
        return Some(w);
      }
      pending := pending - {w};
    }
    return None;
  }

  /** The accessor `getSharedWorldName()`. A set canonical world whose folder exists
      is answered as it is. Otherwise the canonical is re-resolved from the members
      and stored, even when resolution fails; the call then fails with
      `NoValidStorageLocation`. */
  method GetSharedWorldName(s: Registry, id: GroupId, folders: set<string>)
    returns (s': Registry, r: Result<string, StorageError>)
    requires id in s.arena
    ensures var c := s.arena[id].canonical;
      c.Some? && c.value in folders ==> s' == s && r == Success(c.value)
    ensures var c := s.arena[id].canonical;
      !(c.Some? && c.value in folders) ==>
        && id in s'.arena
        && s' == s.(arena := s.arena[id := s.arena[id].(canonical := s'.arena[id].canonical)])
        && Resolves(s'.arena[id].canonical, s.arena[id].members, folders)
        && (r.Failure? <==> s'.arena[id].canonical.None?)
        && (r.Success? ==> Some(r.value) == s'.arena[id].canonical)
  {
    var g := s.arena[id];
    s' := s;
    if g.canonical.None? || g.canonical.value !in folders {
      var c := SharedWorldName(g.members, folders);
      s' := s.(arena := s.arena[id := g.(canonical := c)]);
      if c.None? {
        return s', Failure(NoValidStorageLocation);
      }
      return s', Success(c.value);
    }
    r := Success(g.canonical.value);
  }

  /** The tail of `removeWithoutSaving` on group `id`, whose members are final: an
      emptied group leaves the live set; a group that lost its canonical world
      re-resolves it and leaves the live set when no member qualifies. The answer
      says whether either case applied. */
  method Settle(s: Registry, id: GroupId, w: string, folders: set<string>) returns (s': Registry, changed: bool)
    requires Inv(s) && id in s.arena
    ensures Inv(s') && id in s'.arena
    ensures s' == s.(arena := s.arena[id := s.arena[id].(canonical := s'.arena[id].canonical)], live := s'.live)
    ensures s'.live - {id} == s.live - {id}
    ensures SettleEffect(s.arena[id], s'.arena[id].canonical, id in s.live, id in s'.live, w, folders)
    ensures changed <==> s.arena[id].members == {} || IsCanonical(w, s.arena[id].canonical)
  {
    var g := s.arena[id];
    s', changed := s, false;
    if g.members == {} {
      changed := true;
      s' := Drop(s, id);
    } else if IsCanonical(w, g.canonical) {
      changed := true;
      var c := SharedWorldName(g.members, folders);
      s' := WithCanonical(s, id, c);
      if c.None? {
        s' := Drop(s', id);
      }
    }
  }

  /** `removeWithoutSaving(world, createNew)` on group `id`.
      The lower-cased world leaves the members; an emptied group leaves the live
      set; a group that lost its canonical world re-resolves it and leaves the live
      set when no member qualifies. With `createNew`, a world that was a member is
      handed to a fresh singleton group (see `MoveToSingleton`). The answer is false
      exactly when the world was not a member, the group is non-empty and the world
      is not its canonical world. */
  method RemoveWithoutSaving(s: Registry, id: GroupId, w: string, createNew: bool, folders: set<string>)
    returns (s': Registry, removed: bool)
    requires Inv(s) && id in s.arena
    decreases if createNew then 5 else 0
    ensures Inv(s') && s'.loaded == s.loaded && s.arena.Keys <= s'.arena.Keys
    ensures RemovalEffect(s.arena[id], s'.arena[id], id in s.live, id in s'.live, w, folders)
    ensures removed <==> Contains(s.arena[id], w) || s'.arena[id].members == {} || IsCanonical(w, s.arena[id].canonical)
    ensures forall other :: other in s.arena && other != id ==>
      s'.arena[other] == s.arena[other] && (other in s'.live <==> other in s.live)
    ensures createNew && Contains(s.arena[id], w) ==>
      && s'.counter == s.counter + 1
      && s'.arena.Keys == s.arena.Keys + {s.counter}
      && s'.arena[s.counter] == Group(DefaultName(s.counter), {Lower(w)}, Some(w))
      && s.counter in s'.live
      && s'.binding == s.binding[Lower(w) := s.counter]
    ensures !(createNew && Contains(s.arena[id], w)) ==>
      s'.counter == s.counter && s'.arena.Keys == s.arena.Keys && s'.binding == s.binding
  {
    var key := Lower(w);
    if key in s.arena[id].members && createNew {
      s' := MoveToSingleton(s, id, w, folders);
      removed := true;
    } else {
      var s1 := WithoutMember(s, id, key);
      var changed;
      s', changed := Settle(s1, id, w, folders);
      forall other | other in s.arena && other != id
        ensures s'.arena[other] == s.arena[other] && (other in s'.live <==> other in s.live)
      {
        assert other in s'.live - {id} <==> other in s1.live - {id};
      }
      removed := key in s.arena[id].members || changed;
    }
  }

  /** The `createNew` branch of `removeWithoutSaving` for a world that is a member of
      group `id`: the world leaves the group, a new group is constructed with the
      world as its canonical, and the world is added to it. That add finds the world
      still bound to group `id` and re-enters `removeWithoutSaving` there, which
      settles the emptied group or the lost canonical; the second settling step
      that follows finds nothing left to do. */
  method MoveToSingleton(s: Registry, id: GroupId, w: string, folders: set<string>) returns (s': Registry)
    requires Inv(s) && id in s.arena && Contains(s.arena[id], w)
    decreases 4
    ensures Inv(s') && s'.loaded == s.loaded
    ensures s'.arena.Keys == s.arena.Keys + {s.counter}
    ensures RemovalEffect(s.arena[id], s'.arena[id], id in s.live, id in s'.live, w, folders)
    ensures forall other :: other in s.arena && other != id ==>
      s'.arena[other] == s.arena[other] && (other in s'.live <==> other in s.live)
    ensures s'.counter == s.counter + 1
    ensures s'.arena[s.counter] == Group(DefaultName(s.counter), {Lower(w)}, Some(w))
    ensures s.counter in s'.live
    ensures s'.binding == s.binding[Lower(w) := s.counter]
  {
    var s3 := Rehome(s, id, w, folders);
    var changed;
    s', changed := Settle(s3, id, w, folders);
    SettleTwice(s.arena[id].(members := s.arena[id].members - {Lower(w)}), s3.arena[id].canonical,
                s'.arena[id].canonical, id in s.live, id in s3.live, id in s'.live, w, folders);
    assert s.counter in s'.live - {id};
    forall other | other in s.arena && other != id
      ensures s'.arena[other] == s.arena[other] && (other in s'.live <==> other in s.live)
    {
      assert other in s'.live - {id} <==> other in s3.live - {id};
    }
  }

  /** The first part of `MoveToSingleton`: the world leaves group `id` and is added
      to a new group whose canonical world it is; that add settles group `id` once. */
  method Rehome(s: Registry, id: GroupId, w: string, folders: set<string>) returns (s': Registry)
    requires Inv(s) && id in s.arena && Contains(s.arena[id], w)
    decreases 3
    ensures Inv(s') && s'.loaded == s.loaded
    ensures s'.arena.Keys == s.arena.Keys + {s.counter} && id != s.counter
    ensures s'.arena[id] == s.arena[id].(members := s.arena[id].members - {Lower(w)}, canonical := s'.arena[id].canonical)
    ensures SettleEffect(s.arena[id].(members := s.arena[id].members - {Lower(w)}), s'.arena[id].canonical,
                         id in s.live, id in s'.live, w, folders)
    ensures forall other :: other in s.arena && other != id ==>
      s'.arena[other] == s.arena[other] && (other in s'.live <==> other in s.live)
    ensures s'.counter == s.counter + 1
    ensures s'.arena[s.counter] == Group(DefaultName(s.counter), {Lower(w)}, Some(w))
    ensures s.counter in s'.live
    ensures s'.binding == s.binding[Lower(w) := s.counter]
  {
    var key := Lower(w);
    var s1 := WithoutMember(s, id, key);
    var n := s1.counter;
    var s2 := Construct(s1, Some(w));
    assert s2.binding[key] == id;
    s' := AddWithoutSaving(s2, n, w, folders);
    forall other | other in s.arena && other != id
      ensures s'.arena[other] == s.arena[other] && (other in s'.live <==> other in s.live)
    {
      assert other != n && other in s2.arena;
      assert s'.arena[other] == s2.arena[other] && (other in s'.live <==> other in s2.live);
    }
  }

  /** The effect of adding world `w` to group `id`, from state `s` to `s'`. */
  ghost predicate AddEffect(s: Registry, s': Registry, id: GroupId, w: string, folders: set<string>)
    requires id in s.arena
  {
    AddFrame(s, s', id, w) && AddOthers(s, s', id, w, folders) && AddCanonical(s, s', id, w, folders)
  }

  /** Only the binding of `w` changes, and it now names `id`; `id` keeps its name
      and gains the lower-cased world; no group becomes live. */
  ghost predicate AddFrame(s: Registry, s': Registry, id: GroupId, w: string)
    requires id in s.arena
  {
    && s'.loaded == s.loaded && s'.counter == s.counter && s'.arena.Keys == s.arena.Keys
    && s'.binding == s.binding[Lower(w) := id]
    && s'.arena[id].name == s.arena[id].name
    && s'.arena[id].members == s.arena[id].members + {Lower(w)}
    && s'.live <= s.live
  }

  /** The group `w` was bound to before, when that is another group, loses it as
      `removeWithoutSaving` describes; every other group is untouched. */
  ghost predicate AddOthers(s: Registry, s': Registry, id: GroupId, w: string, folders: set<string>)
    requires s'.arena.Keys == s.arena.Keys
  {
    var key := Lower(w);
    && (key in s.binding && s.binding[key] != id && s.binding[key] in s.arena ==>
          var h := s.binding[key];
          RemovalEffect(s.arena[h], s'.arena[h], h in s.live, h in s'.live, w, folders))
    && (forall other :: other in s.arena && other != id && !(key in s.binding && other == s.binding[key]) ==>
          s'.arena[other] == s.arena[other] && (other in s'.live <==> other in s.live))
  }

  /** The canonical world of `id` only changes by re-resolution, and a group without
      one resolves it over its new members. When `w` was not bound to `id` already,
      `id` keeps its liveness and any canonical world it had. When it was bound
      there, the removal that `addWithoutSaving` starts with settles `id` itself:
      `id` stays live exactly when it was live, has another member, and, if `w` was
      its canonical world, another member whose folder exists; a canonical world
      other than `w` is kept. */
  ghost predicate AddCanonical(s: Registry, s': Registry, id: GroupId, w: string, folders: set<string>)
    requires id in s.arena && id in s'.arena
  {
    var key := Lower(w);
    var bound := key in s.binding;
    var c := s.arena[id].canonical;
    var rest := s.arena[id].members - {key};
    && (c.None? ==> Resolves(s'.arena[id].canonical, s'.arena[id].members, folders))
    && (s'.arena[id].canonical == c || Resolves(s'.arena[id].canonical, s'.arena[id].members, folders))
    && (c.Some? && !IsCanonical(w, c) ==> s'.arena[id].canonical == c)
    && (!(bound && s.binding[key] == id) ==>
          (id in s'.live <==> id in s.live) && (c.Some? ==> s'.arena[id].canonical == c))
    && (bound && s.binding[key] == id ==>
          (id in s'.live <==> id in s.live && rest != {} &&
                              (IsCanonical(w, c) ==> exists x :: x in rest && x in folders)))
  }

  /** What `Unbind` does: only the group the world was bound to changes, as
      `removeWithoutSaving` describes, and afterwards no group holds the world. */
  ghost predicate UnbindEffect(s: Registry, s': Registry, w: string, folders: set<string>) {
    && UnbindFrame(s, s', w)
    && (Lower(w) in s.binding && s.binding[Lower(w)] in s.arena ==>
          var h := s.binding[Lower(w)];
          RemovalEffect(s.arena[h], s'.arena[h], h in s.live, h in s'.live, w, folders))
    && (forall other :: other in s.arena && !(Lower(w) in s.binding && other == s.binding[Lower(w)]) ==>
          s'.arena[other] == s.arena[other] && (other in s'.live <==> other in s.live))
  }

  /** The parts of `UnbindEffect` that do not depend on the group: bindings and the
      counter are kept, names are kept, no group becomes live, no group holds the world. */
  ghost predicate UnbindFrame(s: Registry, s': Registry, w: string) {
    && s'.loaded == s.loaded && s'.counter == s.counter && s'.arena.Keys == s.arena.Keys
    && s'.binding == s.binding && s'.live <= s.live
    && (forall other :: other in s'.arena ==> Lower(w) !in s'.arena[other].members)
    && (forall other :: other in s.arena ==> s'.arena[other].name == s.arena[other].name)
  }

  /** The second step of `addWithoutSaving`, once no group holds the world: bind it
      to `id`, add it lower-cased, and store `c` as the canonical world if there
      was none. */
  function Join(s1: Registry, id: GroupId, w: string, c: Option<string>): (r: Registry)
    requires id in s1.arena
  {
    var g := s1.arena[id];
    s1.(binding := s1.binding[Lower(w) := id],
        arena := s1.arena[id := Group(g.name, g.members + {Lower(w)}, if g.canonical.None? then c else g.canonical)])
  }

  /** Joining a world that no group holds keeps the registry invariant. */
  lemma JoinInv(s1: Registry, id: GroupId, w: string, c: Option<string>)
    requires Inv(s1) && id in s1.arena
    requires forall other :: other in s1.arena ==> Lower(w) !in s1.arena[other].members
    ensures Inv(Join(s1, id, w, c))
  {
    LowerIdempotent(w);
  }

  // The proof of `AddWithoutSaving` in four parts, one per part of `AddEffect`: the
  // frame, the members of the target, the other groups and the target's canonical
  // world. Each compares the registry after `Join` with the one before `Unbind`.

  /** `Join` keeps the counter, the group ids and the target's name, binds the added
      world to `id`, and makes no group live. */
  lemma JoinFrame(s: Registry, s1: Registry, id: GroupId, w: string, c: Option<string>)
    requires Inv(s1) && id in s.arena && UnbindFrame(s, s1, w)
    ensures var r := Join(s1, id, w, c); r.loaded == s.loaded && r.counter == s.counter
    ensures var r := Join(s1, id, w, c); r.binding == s.binding[Lower(w) := id]
    ensures var r := Join(s1, id, w, c); r.arena.Keys == s.arena.Keys && r.live <= s.live
    ensures var r := Join(s1, id, w, c); r.arena[id].name == s.arena[id].name
  {
  }

  /** After `Join` group `id` holds its old members plus the world. */
  lemma JoinMembers(s: Registry, s1: Registry, id: GroupId, w: string, c: Option<string>, folders: set<string>)
    requires Inv(s1) && id in s.arena && UnbindEffect(s, s1, w, folders)
    ensures Join(s1, id, w, c).arena[id].members == s.arena[id].members + {Lower(w)}
  {
  }

  /** After `Join` the other groups are as `AddOthers` states. */
  lemma JoinOthers(s: Registry, s1: Registry, id: GroupId, w: string, c: Option<string>, folders: set<string>)
    requires Inv(s1) && id in s.arena && UnbindEffect(s, s1, w, folders)
    ensures AddOthers(s, Join(s1, id, w, c), id, w, folders)
  {
  }

  /** After `Join` the canonical world and liveness of group `id` are as `AddCanonical` states. */
  lemma JoinCanonical(s: Registry, s1: Registry, id: GroupId, w: string, c: Option<string>, folders: set<string>)
    requires Inv(s1) && id in s.arena && UnbindEffect(s, s1, w, folders)
    requires s1.arena[id].canonical.None? ==> Resolves(c, s1.arena[id].members + {Lower(w)}, folders)
    ensures AddCanonical(s, Join(s1, id, w, c), id, w, folders)
  {
  }

  /** `addWithoutSaving(world)` on group `id`: the world is first removed from the
      group it is bound to (even when that is group `id` itself), then bound to `id`
      and added lower-cased; a group without a canonical world resolves one. */
  method AddWithoutSaving(s: Registry, id: GroupId, w: string, folders: set<string>) returns (s': Registry)
    requires Inv(s) && id in s.arena
    decreases 2
    ensures Inv(s') && AddEffect(s, s', id, w, folders)
  {
    var s1 := Unbind(s, w, folders);
    var c := None;
    if s1.arena[id].canonical.None? {
      c := SharedWorldName(s1.arena[id].members + {Lower(w)}, folders);
    }
    s' := Join(s1, id, w, c);
    JoinInv(s1, id, w, c);
    JoinFrame(s, s1, id, w, c);
    JoinMembers(s, s1, id, w, c, folders);
    JoinOthers(s, s1, id, w, c, folders);
    JoinCanonical(s, s1, id, w, c, folders);
  }

  /** The first step of `addWithoutSaving`: a bound world is removed, without
      saving, from the group it is bound to. Afterwards no group holds the world. */
  method Unbind(s: Registry, w: string, folders: set<string>) returns (s': Registry)
    requires Inv(s)
    decreases 1
    ensures Inv(s') && UnbindEffect(s, s', w, folders)
  {
    var key := Lower(w);
    s' := s;
    if key in s.binding {
      var ignored;
      s', ignored := RemoveWithoutSaving(s, s.binding[key], w, false, folders);
      forall other | other in s'.arena
        ensures key !in s'.arena[other].members
      {
        if other != s.binding[key] {
          assert key !in s.arena[other].members;
        }
      }
    }
  }

  /** The lower-cased name of the first listed world whose folder exists, or
      nothing when no listed world has a folder. */
  function FirstWithFolder(ws: seq<string>, folders: set<string>): (r: Option<string>)
    ensures r.None? <==> forall j :: 0 <= j < |ws| ==> Lower(ws[j]) !in folders
    ensures r.Some? ==> exists j :: 0 <= j < |ws| && r.value == Lower(ws[j]) && r.value in folders &&
                                    forall k :: 0 <= k < j ==> Lower(ws[k]) !in folders
  {
    if ws == [] then None
    else
      var init, last := ws[..|ws| - 1], ws[|ws| - 1];
      assert forall j :: 0 <= j < |init| ==> init[j] == ws[j];
      match FirstWithFolder(init, folders)
      case Some(c) => Some(c)
      case None => if Lower(last) in folders then Some(Lower(last)) else None
  }

  /** Group `id` starts `AddAll` without a canonical world and without a member
      whose folder exists, and the listed worlds are distinct up to case and not
      bound to it: each add then resolves the canonical world until one is found. */
  ghost predicate Unresolved(s: Registry, id: GroupId, worlds: seq<string>, folders: set<string>) {
    && id in s.arena && s.arena[id].canonical.None?
    && Resolves(None, s.arena[id].members, folders)
    && DistinctIgnoreCase(worlds) && NoneBoundTo(s, worlds, id)
  }

  /** After adding one more world to an unresolved group, its canonical world is
      still the first listed world with a folder. */
  lemma FirstStep(s0: Registry, prev: Registry, next: Registry, id: GroupId, worlds: seq<string>, i: nat,
                  folders: set<string>)
    requires i < |worlds| && Unresolved(s0, id, worlds, folders)
    requires Absorbed(s0, prev, id, LowerSet(worlds[..i]), folders)
    requires prev.arena[id].canonical == FirstWithFolder(worlds[..i], folders)
    requires AddEffect(prev, next, id, worlds[i], folders)
    ensures next.arena[id].canonical == FirstWithFolder(worlds[..i + 1], folders)
  {
    FirstNotBound(s0, prev, id, worlds, i);
    FirstWithFolderSnoc(worlds, i, folders);
    if prev.arena[id].canonical.None? {
      FirstNoneMembers(s0.arena[id].members, prev.arena[id].members, worlds[..i], folders);
    }
  }

  /** When the listed worlds are distinct and none was bound to `id`, the next one is
      not yet bound to `id`. */
  lemma FirstNotBound(s0: Registry, prev: Registry, id: GroupId, worlds: seq<string>, i: nat)
    requires i < |worlds| && DistinctIgnoreCase(worlds) && NoneBoundTo(s0, worlds, id)
    requires AbsorbedFrame(s0, prev, id, LowerSet(worlds[..i]))
    ensures !(Lower(worlds[i]) in prev.binding && prev.binding[Lower(worlds[i])] == id)
  {
    LowerSetFresh(worlds, i);
  }

  /** The first world with a folder among one more listed world. */
  lemma FirstWithFolderSnoc(ws: seq<string>, i: nat, folders: set<string>)
    requires i < |ws|
    ensures FirstWithFolder(ws[..i + 1], folders) ==
      if FirstWithFolder(ws[..i], folders).Some? then FirstWithFolder(ws[..i], folders)
      else if Lower(ws[i]) in folders then Some(Lower(ws[i])) else None
  {
    assert ws[..i + 1][..i] == ws[..i];
  }

  /** A group holding only folderless worlds and listed worlds none of which has a
      folder holds no world with a folder. */
  lemma FirstNoneMembers(m0: set<string>, m: set<string>, done: seq<string>, folders: set<string>)
    requires Resolves(None, m0, folders) && m == m0 + LowerSet(done)
    requires FirstWithFolder(done, folders).None?
    ensures Resolves(None, m, folders)
  {
    forall y | y in LowerSet(done)
      ensures y !in folders
    {
      var w :| w in done && Lower(w) == y;
      var j :| 0 <= j < |done| && done[j] == w;
    }
  }

  /** No listed world is currently bound to group `id`. */
  ghost predicate NoneBoundTo(s: Registry, worlds: seq<string>, id: GroupId) {
    forall i :: 0 <= i < |worlds| && Lower(worlds[i]) in s.binding ==> s.binding[Lower(worlds[i])] != id
  }

  /** What `AddAll` has done to group `id` once the worlds with lower-cased names
      `keys` have been added, starting from state `s0`: the frame, the bindings,
      the member sets and the canonical world. */
  ghost predicate Absorbed(s0: Registry, s: Registry, id: GroupId, keys: set<string>, folders: set<string>)
  {
    && id in s0.arena && Inv(s)
    && AbsorbedFrame(s0, s, id, keys)
    && AbsorbedMembers(s0, s, id, keys)
    && AbsorbedCanonical(s0, s, id, folders)
  }

  ghost predicate AbsorbedFrame(s0: Registry, s: Registry, id: GroupId, keys: set<string>) {
    && s.loaded == s0.loaded && s.counter == s0.counter && s.arena.Keys == s0.arena.Keys
    && s.live <= s0.live
    && s.binding.Keys == s0.binding.Keys + keys
    && (forall k :: k in keys ==> s.binding[k] == id)
    && (forall k :: k in s0.binding && k !in keys ==> s.binding[k] == s0.binding[k])
  }

  ghost predicate AbsorbedMembers(s0: Registry, s: Registry, id: GroupId, keys: set<string>)
    requires id in s0.arena && s.arena.Keys == s0.arena.Keys
  {
    && s.arena[id].name == s0.arena[id].name
    && s.arena[id].members == s0.arena[id].members + keys
    && (forall other :: other in s0.arena && other != id ==>
          s.arena[other].name == s0.arena[other].name &&
          s.arena[other].members == s0.arena[other].members - keys)
  }

  ghost predicate AbsorbedCanonical(s0: Registry, s: Registry, id: GroupId, folders: set<string>)
    requires id in s0.arena && id in s.arena
  {
    Resolves(s0.arena[id].canonical, s0.arena[id].members, folders) ==>
      Resolves(s.arena[id].canonical, s.arena[id].members, folders)
  }

  /** Group `id` has kept its liveness and any canonical world it had in `s0`. */
  ghost predicate Undisturbed(s0: Registry, s: Registry, id: GroupId)
    requires id in s0.arena && id in s.arena
  {
    (id in s.live <==> id in s0.live) &&
    (s0.arena[id].canonical.Some? ==> s.arena[id].canonical == s0.arena[id].canonical)
  }

  lemma AbsorbedFrameStep(s0: Registry, prev: Registry, next: Registry, id: GroupId, keys: set<string>,
                          w: string, folders: set<string>)
    requires id in s0.arena && id in prev.arena && AbsorbedFrame(s0, prev, id, keys)
    requires AddEffect(prev, next, id, w, folders)
    ensures AbsorbedFrame(s0, next, id, keys + {Lower(w)})
  {
  }

  lemma AbsorbedMembersStep(s0: Registry, prev: Registry, next: Registry, id: GroupId, keys: set<string>,
                            w: string, folders: set<string>)
    requires id in s0.arena && Inv(prev) && prev.arena.Keys == s0.arena.Keys && AbsorbedMembers(s0, prev, id, keys)
    requires AddEffect(prev, next, id, w, folders)
    ensures AbsorbedMembers(s0, next, id, keys + {Lower(w)})
  {
    var key := Lower(w);
    forall other | other in s0.arena && other != id
      ensures next.arena[other].name == s0.arena[other].name
      ensures next.arena[other].members == s0.arena[other].members - (keys + {key})
    {
      if !(key in prev.binding && prev.binding[key] == other) {
        assert key !in prev.arena[other].members;
      }
    }
  }

  lemma AbsorbedCanonicalStep(s0: Registry, prev: Registry, next: Registry, id: GroupId, keys: set<string>,
                              w: string, folders: set<string>)
    requires id in s0.arena && id in prev.arena && prev.arena.Keys == s0.arena.Keys
    requires AbsorbedMembers(s0, prev, id, keys) && AbsorbedCanonical(s0, prev, id, folders)
    requires AddEffect(prev, next, id, w, folders)
    ensures AbsorbedCanonical(s0, next, id, folders)
    ensures Undisturbed(s0, prev, id) && !(Lower(w) in prev.binding && prev.binding[Lower(w)] == id) ==>
      Undisturbed(s0, next, id)
  {
    var c0, m0 := s0.arena[id].canonical, s0.arena[id].members;
    if Resolves(c0, m0, folders) && prev.arena[id].canonical.Some? {
      assert prev.arena[id].members <= next.arena[id].members;
    }
  }

  /** One more add keeps `Absorbed`, with the new key; a world that is new to the
      group and was not bound to it keeps the group undisturbed. */
  lemma AbsorbedStep(s0: Registry, prev: Registry, next: Registry, id: GroupId, keys: set<string>,
                     w: string, folders: set<string>)
    requires Absorbed(s0, prev, id, keys, folders)
    requires Inv(next) && AddEffect(prev, next, id, w, folders)
    ensures Absorbed(s0, next, id, keys + {Lower(w)}, folders)
    ensures (Undisturbed(s0, prev, id) && Lower(w) !in keys &&
             (Lower(w) in s0.binding ==> s0.binding[Lower(w)] != id)) ==>
            Undisturbed(s0, next, id)
  {
    AbsorbedFrameStep(s0, prev, next, id, keys, w, folders);
    AbsorbedMembersStep(s0, prev, next, id, keys, w, folders);
    AbsorbedCanonicalStep(s0, prev, next, id, keys, w, folders);
  }

  /** No key of `keys` is bound to group `g`. */
  ghost predicate Unreached(s: Registry, g: GroupId, keys: set<string>) {
    forall k :: k in keys && k in s.binding ==> s.binding[k] != g
  }

  /** Every group other than `id` to which none of `keys` was bound in `s0` is
      exactly as it was, liveness included. */
  ghost predicate Spared(s0: Registry, s: Registry, id: GroupId, keys: set<string>) {
    forall g :: g in s0.arena && g != id && Unreached(s0, g, keys) ==>
      g in s.arena && s.arena[g] == s0.arena[g] && (g in s.live <==> g in s0.live)
  }

  lemma SparedStep(s0: Registry, prev: Registry, next: Registry, id: GroupId, keys: set<string>,
                   w: string, folders: set<string>)
    requires Absorbed(s0, prev, id, keys, folders) && Spared(s0, prev, id, keys)
    requires AddEffect(prev, next, id, w, folders)
    ensures Spared(s0, next, id, keys + {Lower(w)})
  {
    var key := Lower(w);
    forall g | g in s0.arena && g != id && Unreached(s0, g, keys + {key})
      ensures g in next.arena && next.arena[g] == s0.arena[g] && (g in next.live <==> g in s0.live)
    {
      assert Unreached(s0, g, keys);
    }
  }

  /** Some key of `keys` bound to group `g` names its canonical world. */
  ghost predicate TakesCanonical(s: Registry, g: GroupId, keys: set<string>)
    requires g in s.arena
  {
    exists k :: k in keys && k in s.binding && s.binding[k] == g && IsCanonical(k, s.arena[g].canonical)
  }

  /** What removing several worlds from a group one after another does to it, as
      each removal settles the group (`SettleEffect`), from `g0` (live when `live0`)
      to `g` (live when `live`). `hit` says whether a removed world was the
      canonical world of `g0`. The group keeps its name and only loses members, it
      never becomes live, and an emptied group is not live. Without a hit the
      canonical world is kept and the group stays live exactly when it was live and
      is not empty. After a hit, a group that is not empty has re-resolved its
      canonical world over the remaining members and stays live exactly when it was
      live and one qualified. */
  ghost predicate Drained(g0: Group, g: Group, live0: bool, live: bool, hit: bool, folders: set<string>) {
    && g.name == g0.name && g.members <= g0.members
    && (live ==> live0)
    && (g.members == {} ==> !live)
    && (!hit ==> g.canonical == g0.canonical && (live <==> live0 && g.members != {}))
    && (hit && g.members != {} ==>
          Resolves(g.canonical, g.members, folders) && (live <==> live0 && g.canonical.Some?))
  }

  /** One more removal keeps a group drained. */
  lemma DrainedStep(g0: Group, gp: Group, gn: Group, l0: bool, lp: bool, ln: bool, hit: bool,
                    w: string, folders: set<string>)
    requires forall m :: m in gp.members ==> Lower(m) == m
    requires (gp == g0 && lp == l0 && !hit) || Drained(g0, gp, l0, lp, hit, folders)
    requires RemovalEffect(gp, gn, lp, ln, w, folders)
    ensures Drained(g0, gn, l0, ln, hit || IsCanonical(Lower(w), g0.canonical), folders)
  {
    LowerIdempotent(w);
    if gn.members != {} && !IsCanonical(w, gp.canonical) && gp.canonical.Some? {
      assert Lower(gp.canonical.value) == gp.canonical.value || gp.canonical.value !in gp.members;
    }
  }

  /** Two rounds of removals make one: the second round's hit is measured against
      the canonical world the first round left, and the first round's canonical
      world stays a member unless the second round hits it. */
  lemma DrainedTrans(g0: Group, g1: Group, g2: Group, l0: bool, l1: bool, l2: bool, h1: bool, h2: bool,
                     folders: set<string>)
    requires Drained(g0, g1, l0, l1, h1, folders) && Drained(g1, g2, l1, l2, h2, folders)
    requires h2 ==> g1.canonical.Some?
    requires !h2 && g1.canonical.Some? && g1.canonical.value in g1.members ==> g1.canonical.value in g2.members
    ensures Drained(g0, g2, l0, l2, h1 || h2, folders)
  {
  }

  /** Every group other than `id` that some key of `keys` was bound to in `s0` has
      been drained by the removal of those keys. */
  ghost predicate Drains(s0: Registry, s: Registry, id: GroupId, keys: set<string>, folders: set<string>) {
    forall g :: g in s0.arena && g != id && !Unreached(s0, g, keys) ==>
      g in s.arena &&
      Drained(s0.arena[g], s.arena[g], g in s0.live, g in s.live, TakesCanonical(s0, g, keys), folders)
  }

  lemma DrainsStep(s0: Registry, prev: Registry, next: Registry, id: GroupId, keys: set<string>,
                   w: string, folders: set<string>)
    requires AbsorbedFrame(s0, prev, id, keys) && Spared(s0, prev, id, keys)
    requires Drains(s0, prev, id, keys, folders)
    requires forall g, m :: g in prev.arena && m in prev.arena[g].members ==> Lower(m) == m
    requires next.arena.Keys == prev.arena.Keys && AddOthers(prev, next, id, w, folders)
    ensures Drains(s0, next, id, keys + {Lower(w)}, folders)
  {
    forall g | g in s0.arena && g != id && !Unreached(s0, g, keys + {Lower(w)})
      ensures g in next.arena
      ensures Drained(s0.arena[g], next.arena[g], g in s0.live, g in next.live,
                      TakesCanonical(s0, g, keys + {Lower(w)}), folders)
    {
      DrainsAt(s0, prev, next, id, keys, w, g, folders);
    }
  }

  /** One add step keeps one group of `s0` settled, whether or not the added world
      was bound to it. */
  lemma DrainsAt(s0: Registry, prev: Registry, next: Registry, id: GroupId, keys: set<string>,
                 w: string, g: GroupId, folders: set<string>)
    requires AbsorbedFrame(s0, prev, id, keys) && Spared(s0, prev, id, keys)
    requires Drains(s0, prev, id, keys, folders)
    requires next.arena.Keys == prev.arena.Keys && AddOthers(prev, next, id, w, folders)
    requires g in s0.arena && g != id && !Unreached(s0, g, keys + {Lower(w)})
    requires forall m :: m in prev.arena[g].members ==> Lower(m) == m
    ensures g in next.arena
    ensures Drained(s0.arena[g], next.arena[g], g in s0.live, g in next.live,
                    TakesCanonical(s0, g, keys + {Lower(w)}), folders)
  {
    var key := Lower(w);
    var reached := !Unreached(s0, g, keys);
    assert g in prev.arena;
    assert !reached ==> prev.arena[g] == s0.arena[g] && (g in prev.live <==> g in s0.live);
    assert reached ==> Drained(s0.arena[g], prev.arena[g], g in s0.live, g in prev.live,
                               TakesCanonical(s0, g, keys), folders);
    if key in prev.binding && prev.binding[key] == g {
      assert key !in keys;
      DrainsRemoved(s0, prev, next, keys, w, g, folders);
    } else {
      assert next.arena[g] == prev.arena[g] && (g in next.live <==> g in prev.live);
      assert !(key in s0.binding && s0.binding[key] == g && key !in keys);
      TakesCanonicalKeep(s0, g, keys, key);
    }
  }

  /** The added world was bound to group `g`: its removal settles `g` once more. */
  lemma DrainsRemoved(s0: Registry, prev: Registry, next: Registry, keys: set<string>,
                      w: string, g: GroupId, folders: set<string>)
    requires g in s0.arena && g in prev.arena && g in next.arena
    requires Lower(w) in s0.binding && s0.binding[Lower(w)] == g
    requires forall m :: m in prev.arena[g].members ==> Lower(m) == m
    requires Unreached(s0, g, keys) ==> prev.arena[g] == s0.arena[g] && (g in prev.live <==> g in s0.live)
    requires !Unreached(s0, g, keys) ==>
      Drained(s0.arena[g], prev.arena[g], g in s0.live, g in prev.live, TakesCanonical(s0, g, keys), folders)
    requires RemovalEffect(prev.arena[g], next.arena[g], g in prev.live, g in next.live, w, folders)
    ensures Drained(s0.arena[g], next.arena[g], g in s0.live, g in next.live,
                    TakesCanonical(s0, g, keys + {Lower(w)}), folders)
  {
    var hit := TakesCanonical(s0, g, keys);
    DrainedStep(s0.arena[g], prev.arena[g], next.arena[g], g in s0.live, g in prev.live, g in next.live,
                hit, w, folders);
    TakesCanonicalAdd(s0, g, keys, Lower(w));
  }

  lemma TakesCanonicalAdd(s0: Registry, g: GroupId, keys: set<string>, key: string)
    requires g in s0.arena && key in s0.binding && s0.binding[key] == g
    ensures TakesCanonical(s0, g, keys + {key}) <==>
      TakesCanonical(s0, g, keys) || IsCanonical(key, s0.arena[g].canonical)
  {
  }

  lemma TakesCanonicalKeep(s0: Registry, g: GroupId, keys: set<string>, key: string)
    requires g in s0.arena && !(key in s0.binding && s0.binding[key] == g && key !in keys)
    ensures TakesCanonical(s0, g, keys + {key}) == TakesCanonical(s0, g, keys)
    ensures Unreached(s0, g, keys + {key}) == Unreached(s0, g, keys)
  {
  }

  lemma LowerSetSnoc(ws: seq<string>, i: nat)
    requires i < |ws|
    ensures LowerSet(ws[..i + 1]) == LowerSet(ws[..i]) + {Lower(ws[i])}
  {
    assert ws[..i + 1] == ws[..i] + [ws[i]];
  }

  lemma LowerSetFresh(ws: seq<string>, i: nat)
    requires i < |ws| && DistinctIgnoreCase(ws)
    ensures Lower(ws[i]) !in LowerSet(ws[..i])
  {
  }

  /** Adds the listed worlds to group `id` one after another with
      `addWithoutSaving`, as the loops of `merge` and `load` do. Each world is taken
      from whatever group held it, so the group ends up holding exactly its old
      members and the listed worlds, every listed world is bound to it, and every
      other group has lost the listed worlds, each removal settling it as
      `removeWithoutSaving` does (`Drains`). A canonical world that was valid
      stays valid; when the worlds are distinct and none was bound to the group
      already, a set canonical world and the group's liveness are untouched. */
  method AddAll(s: Registry, id: GroupId, worlds: seq<string>, folders: set<string>) returns (s': Registry)
    requires Inv(s) && id in s.arena
    ensures Absorbed(s, s', id, LowerSet(worlds), folders)
    ensures DistinctIgnoreCase(worlds) && NoneBoundTo(s, worlds, id) ==> Undisturbed(s, s', id)
    ensures Unresolved(s, id, worlds, folders) ==> s'.arena[id].canonical == FirstWithFolder(worlds, folders)
    ensures Spared(s, s', id, LowerSet(worlds))
    ensures Drains(s, s', id, LowerSet(worlds), folders)
  {
    s' := s;
    var i := 0;
    AddedStart(s, id, worlds, folders);
    while i < |worlds|
      invariant 0 <= i <= |worlds|
      invariant AddedUpTo(s, s', id, worlds, i, folders)
    {
      s' := AddNext(s, s', id, worlds, i, folders);
      i := i + 1;
    }
    AddedEnd(s, s', id, worlds, folders);
  }

  lemma AddedEnd(s: Registry, s': Registry, id: GroupId, worlds: seq<string>, folders: set<string>)
    requires AddedUpTo(s, s', id, worlds, |worlds|, folders)
    ensures Absorbed(s, s', id, LowerSet(worlds), folders)
    ensures DistinctIgnoreCase(worlds) && NoneBoundTo(s, worlds, id) ==> Undisturbed(s, s', id)
    ensures Unresolved(s, id, worlds, folders) ==> s'.arena[id].canonical == FirstWithFolder(worlds, folders)
    ensures Spared(s, s', id, LowerSet(worlds))
    ensures Drains(s, s', id, LowerSet(worlds), folders)
  {
    assert worlds[..|worlds|] == worlds;
  }

  /** The state of `AddAll` once the first i worlds have been added. */
  ghost predicate AddedUpTo(s0: Registry, s: Registry, id: GroupId, worlds: seq<string>, i: nat,
                            folders: set<string>)
    requires i <= |worlds|
  {
    && Absorbed(s0, s, id, LowerSet(worlds[..i]), folders)
    && (DistinctIgnoreCase(worlds) && NoneBoundTo(s0, worlds, id) ==> Undisturbed(s0, s, id))
    && (Unresolved(s0, id, worlds, folders) ==> s.arena[id].canonical == FirstWithFolder(worlds[..i], folders))
    && Spared(s0, s, id, LowerSet(worlds[..i]))
    && Drains(s0, s, id, LowerSet(worlds[..i]), folders)
  }

  lemma AddedStart(s: Registry, id: GroupId, worlds: seq<string>, folders: set<string>)
    requires Inv(s) && id in s.arena
    ensures AddedUpTo(s, s, id, worlds, 0, folders)
  {
    assert worlds[..0] == [];
    assert LowerSet(worlds[..0]) == {};
    assert FirstWithFolder(worlds[..0], folders) == None;
  }

  /** One iteration of `AddAll`: `addWithoutSaving` of the next world. */
  method AddNext(s0: Registry, s: Registry, id: GroupId, worlds: seq<string>, i: nat, folders: set<string>)
    returns (s': Registry)
    requires i < |worlds| && AddedUpTo(s0, s, id, worlds, i, folders)
    ensures AddedUpTo(s0, s', id, worlds, i + 1, folders)
  {
    s' := AddWithoutSaving(s, id, worlds[i], folders);
    AbsorbedStep(s0, s, s', id, LowerSet(worlds[..i]), worlds[i], folders);
    AddedOthersStep(s0, s, s', id, worlds, i, folders);
    if Unresolved(s0, id, worlds, folders) {
      FirstStep(s0, s, s', id, worlds, i, folders);
    }
    if DistinctIgnoreCase(worlds) {
      LowerSetFresh(worlds, i);
    }
    LowerSetSnoc(worlds, i);
  }

  /** One add step keeps the groups other than `id` spared or settled. */
  lemma AddedOthersStep(s0: Registry, s: Registry, s': Registry, id: GroupId, worlds: seq<string>, i: nat,
                        folders: set<string>)
    requires i < |worlds| && Absorbed(s0, s, id, LowerSet(worlds[..i]), folders)
    requires Spared(s0, s, id, LowerSet(worlds[..i])) && Drains(s0, s, id, LowerSet(worlds[..i]), folders)
    requires AddEffect(s, s', id, worlds[i], folders)
    ensures Spared(s0, s', id, LowerSet(worlds[..i + 1]))
    ensures Drains(s0, s', id, LowerSet(worlds[..i + 1]), folders)
  {
    SparedStep(s0, s, s', id, LowerSet(worlds[..i]), worlds[i], folders);
    DrainsStep(s0, s, s', id, LowerSet(worlds[..i]), worlds[i], folders);
    LowerSetSnoc(worlds, i);
  }
}

=== FILE: inventories.dfy ===
/** The state of the world-group registry and the invariants every operation keeps.

    A `Group` is one WorldInventory object: a persisted name, the lower-cased names
    of its member worlds and its canonical ("shared") world, whose folder holds the
    player data of every member. The registry is the process-wide state of the
    class, made explicit:

    - `arena` holds every group ever constructed, indexed by a stable id. Groups
      dropped from the live set stay here, because a world's binding may still
      refer to one of them.
    - `live` is the static `inventories` set.
    - `binding` is the per-world back-reference `WorldConfig.inventory`, keyed by the
      lower-cased world name.
    - `counter` mints default names; a group's id is the counter value at its
      construction, so the next id is always fresh.
    - `loaded` gates every save until the persisted document has been read once.
 */
module Inventories {
  import opened Wrappers
  import opened Strings

  type GroupId = nat

  datatype Group = Group(name: string, members: set<string>, canonical: Option<string>)

  datatype Registry = Registry(
    arena: map<GroupId, Group>,
    live: set<GroupId>,
    binding: map<string, GroupId>,
    counter: nat,
    loaded: bool)

  /** The registry state before any group is constructed and before the first load. */
  function Empty(): (r: Registry)
    ensures Inv(r) && !r.loaded && r.live == {}
  {
    Registry(map[], {}, map[], 0, false)
  }

  /** The name a freshly constructed group receives: "inv" followed by the counter. */
  function DefaultName(n: nat): (r: string) {
    "inv" + NatToString(n)
  }

  /** The registry invariant.
      - every group id was minted before the current counter value;
      - live groups and bound groups exist in the arena;
      - every member is stored lower-cased and is bound to the group that holds it.
      The last clause makes member sets pairwise disjoint (see `MembersDisjoint`).
      It deliberately does not say that a bound group holds the world, nor that
      the group of a member is live: `remove` leaves a world bound to the group
      it just left, and re-adding the only member of a group drops that group
      from the live set while it keeps the member. */
  ghost predicate Inv(s: Registry) {
    && (forall id :: id in s.arena ==> id < s.counter)
    && s.live <= s.arena.Keys
    && (forall w :: w in s.binding ==> s.binding[w] in s.arena)
    && (forall id, m :: id in s.arena && m in s.arena[id].members ==>
          Lower(m) == m && m in s.binding && s.binding[m] == id)
  }

  /** The private constructor: registers a new, empty group with the next default
      name and the given canonical world, and advances the counter. */
  function Construct(s: Registry, canonical: Option<string>): (r: Registry)
    requires Inv(s)
    ensures Inv(r)
    ensures s.counter !in s.arena && r.arena == s.arena[s.counter := Group(DefaultName(s.counter), {}, canonical)]
    ensures r.live == s.live + {s.counter} && r.counter == s.counter + 1
    ensures r.binding == s.binding && r.loaded == s.loaded
  {
    var id := s.counter;
    s.(arena := s.arena[id := Group(DefaultName(id), {}, canonical)],
       live := s.live + {id},
       counter := id + 1)
  }

  /** A group is written to the document only when it shares data between worlds. */
  predicate IsRequiredSaving(g: Group) {
    |g.members| > 1
  }

  /** Case-insensitive membership test. */
  predicate Contains(g: Group, w: string) {
    Lower(w) in g.members
  }

  /** A group requires saving exactly when it holds two different worlds. */
  lemma RequiredSavingShares(g: Group)
    ensures IsRequiredSaving(g) <==> exists a, b :: a in g.members && b in g.members && a != b
  {
    if IsRequiredSaving(g) {
      var a :| a in g.members;
      var rest := g.members - {a};
      assert g.members == rest + {a};
      assert rest != {};
      var b :| b in rest;
      assert a in g.members && b in g.members && a != b;
    }
    if exists a, b :: a in g.members && b in g.members && a != b {
      var a, b :| a in g.members && b in g.members && a != b;
      var rest := g.members - {a};
      assert g.members == rest + {a};
      assert b in rest;
    }
  }

  /** For a group whose members are stored lower-cased, `contains` answers whether
      some member equals the world up to case. */
  lemma ContainsUpToCase(g: Group, w: string)
    requires forall m :: m in g.members ==> Lower(m) == m
    ensures Contains(g, w) <==> exists m :: m in g.members && EqualsIgnoreCase(m, w)
  {
    if Contains(g, w) {
      LowerIdempotent(w);
      assert EqualsIgnoreCase(Lower(w), w);
    }
  }

  /** `c` is a valid outcome of canonical-world resolution over `ws`: a member whose
      folder exists, or nothing when no member's folder exists. */
  predicate Resolves(c: Option<string>, ws: set<string>, folders: set<string>) {
    match c
    case Some(w) => w in ws && w in folders
    case None => forall x :: x in ws ==> x !in folders
  }

  /** `c` names the world `w` up to case; a null canonical never matches. */
  predicate IsCanonical(w: string, c: Option<string>) {
    c.Some? && EqualsIgnoreCase(w, c.value)
  }

  /** What the tail of `removeWithoutSaving` does to group `g`, whose members are
      already final: an empty group leaves the live set; otherwise, when `w` is the
      canonical world, the canonical `c'` is re-resolved from the members and the
      group leaves the live set if none qualifies; otherwise nothing changes. */
  ghost predicate SettleEffect(g: Group, c': Option<string>, wasLive: bool, isLive: bool,
                               w: string, folders: set<string>)
  {
    if g.members == {} then
      !isLive && c' == g.canonical
    else if IsCanonical(w, g.canonical) then
      Resolves(c', g.members, folders) && (isLive <==> wasLive && c'.Some?)
    else
      c' == g.canonical && (isLive <==> wasLive)
  }

  /** What removing `w` from a group does to that group: the lower-cased world
      leaves the members, the name is kept, and the canonical world and liveness
      change as `SettleEffect` describes. */
  ghost predicate RemovalEffect(before: Group, after: Group, wasLive: bool, isLive: bool,
                                w: string, folders: set<string>)
  {
    && after == before.(members := before.members - {Lower(w)}, canonical := after.canonical)
    && SettleEffect(before.(members := after.members), after.canonical, wasLive, isLive, w, folders)
  }

  /** A second settling step after a first one for a world that is no longer a
      member changes nothing more: a re-resolved canonical is a lower-cased member,
      so it never matches the world that left. */
  lemma SettleTwice(g: Group, c1: Option<string>, c2: Option<string>, l0: bool, l1: bool, l2: bool,
                    w: string, folders: set<string>)
    requires Lower(w) !in g.members
    requires forall m :: m in g.members ==> Lower(m) == m
    requires SettleEffect(g, c1, l0, l1, w, folders)
    requires SettleEffect(g.(canonical := c1), c2, l1, l2, w, folders)
    ensures SettleEffect(g, c2, l0, l2, w, folders)
  {
    if g.members != {} && IsCanonical(w, g.canonical) && c1.Some? {
      assert Lower(c1.value) == c1.value;
      assert !IsCanonical(w, c1);
    }
  }

  /** The group `id` without the member `key`. */
  function WithoutMember(s: Registry, id: GroupId, key: string): (r: Registry)
    requires Inv(s) && id in s.arena
    ensures Inv(r)
  {
    s.(arena := s.arena[id := s.arena[id].(members := s.arena[id].members - {key})])
  }

  /** The group `id` with canonical world `c`. */
  function WithCanonical(s: Registry, id: GroupId, c: Option<string>): (r: Registry)
    requires Inv(s) && id in s.arena
    ensures Inv(r)
  {
    s.(arena := s.arena[id := s.arena[id].(canonical := c)])
  }

  /** The group `id` renamed to `name`. */
  function Renamed(s: Registry, id: GroupId, name: string): (r: Registry)
    requires Inv(s) && id in s.arena
    ensures Inv(r)
  {
    s.(arena := s.arena[id := s.arena[id].(name := name)])
  }

  /** Group `id` leaves the live set; it stays in the arena. */
  function Drop(s: Registry, id: GroupId): (r: Registry)
    requires Inv(s)
    ensures Inv(r)
  {
    s.(live := s.live - {id})
  }

  /** The keys of a list of world names. */
  function LowerSet(ws: seq<string>): (r: set<string>)
    ensures forall w :: w in ws ==> Lower(w) in r
  {
    set w | w in ws :: Lower(w)
  }

  /** The keys of a list of names that are already lower-cased are the names. */
  lemma LowerSetLower(ws: seq<string>)
    requires forall w :: w in ws ==> Lower(w) == w
    ensures LowerSet(ws) == set w | w in ws
  {
  }

  /** No two names of the list are equal up to case. */
  predicate DistinctIgnoreCase(ws: seq<string>) {
    forall i, j :: 0 <= i < j < |ws| ==> Lower(ws[i]) != Lower(ws[j])
  }

  /** The world (given by its lower-cased key) belongs to the group it is bound to. */
  ghost predicate Grouped(s: Registry, key: string) {
    key in s.binding && s.binding[key] in s.arena && key in s.arena[s.binding[key]].members
  }

  /** The partition property: no world is a member of two groups, and a world's
      binding names the one group that holds it. */
  lemma MembersDisjoint(s: Registry, a: GroupId, b: GroupId, w: string)
    requires Inv(s) && a in s.arena && b in s.arena
    requires Contains(s.arena[a], w) && Contains(s.arena[b], w)
    ensures a == b && s.binding[Lower(w)] == a
  {
    var key := Lower(w);
    assert key in s.arena[a].members && key in s.arena[b].members;
    assert s.binding[key] == a;
    assert s.binding[key] == b;
  }
}

=== FILE: operations.dfy ===
/** The public operations of WorldInventory, each followed by the `save()` it
    triggers. `written` is the document a call writes: None when the call does not
    save, or saves before the first load (which writes nothing).
 */
module Operations {
  import opened Wrappers
  import opened Strings
  import opened Collections
  import opened Inventories
  import opened Groups
  import opened Persistence

  /** `written` is what `save()` writes for registry `s`: nothing before the first
      load, otherwise a document laid out by `SavedAs` for some visiting order. */
  ghost predicate SaveOutcome(s: Registry, written: Option<Document>) {
    && (written.Some? <==> s.loaded)
    && (written.Some? ==> exists order :: SavedAs(s, written.value, order))
  }

  /** Calls `save()`. */
  method SaveNow(s: Registry) returns (written: Option<Document>)
    requires Inv(s)
    ensures SaveOutcome(s, written)
  {
    var order;
    written, order := Save(s);
  }

  /** `create(worldName)`: constructs a group whose canonical world is `w` and adds
      `w` to it. The new group is live, holds exactly the lower-cased world, keeps `w`
      as its canonical world and has the next default name; the world's previous
      group loses it as `removeWithoutSaving` describes, and no other group changes. */
  method Create(s: Registry, w: string, folders: set<string>)
    returns (s': Registry, id: GroupId, written: Option<Document>)
    requires Inv(s)
    ensures Inv(s') && id == s.counter && s'.counter == s.counter + 1
    ensures s'.arena.Keys == s.arena.Keys + {s.counter} && s.counter in s'.live
    ensures id in s'.arena && s'.arena[id] == Group(DefaultName(s.counter), {Lower(w)}, Some(w))
    ensures s'.binding == s.binding[Lower(w) := s.counter]
    ensures Lower(w) in s.binding ==>
      var h := s.binding[Lower(w)];
      h in s.arena && h in s'.arena && RemovalEffect(s.arena[h], s'.arena[h], h in s.live, h in s'.live, w, folders)
    ensures forall other :: other in s.arena && !(Lower(w) in s.binding && other == s.binding[Lower(w)]) ==>
      other in s'.arena && s'.arena[other] == s.arena[other] && (other in s'.live <==> other in s.live)
    ensures SaveOutcome(s', written)
  {
    id := s.counter;
    var s1 := Construct(s, Some(w));
    assert Lower(w) in s1.binding ==> s1.binding[Lower(w)] != id;
    s' := AddWithoutSaving(s1, id, w, folders);
    written := SaveNow(s');
  }

  /** `add(worldname)`: `addWithoutSaving`, then save. */
  method Add(s: Registry, id: GroupId, w: string, folders: set<string>)
    returns (s': Registry, written: Option<Document>)
    requires Inv(s) && id in s.arena
    ensures Inv(s') && AddEffect(s, s', id, w, folders)
    ensures Contains(s'.arena[id], w) && s'.binding[Lower(w)] == id
    ensures SaveOutcome(s', written)
  {
    s' := AddWithoutSaving(s, id, w, folders);
    written := SaveNow(s');
  }

  /** `remove(worldname)`: `removeWithoutSaving(worldname, false)`, saving only when
      it answers true. The world leaves the group but stays bound to it. */
  method Remove(s: Registry, id: GroupId, w: string, folders: set<string>)
    returns (s': Registry, result: bool, written: Option<Document>)
    requires Inv(s) && id in s.arena
    ensures Inv(s') && s'.counter == s.counter && s'.binding == s.binding && s'.arena.Keys == s.arena.Keys
    ensures id in s'.arena && RemovalEffect(s.arena[id], s'.arena[id], id in s.live, id in s'.live, w, folders)
    ensures id in s'.arena && !Contains(s'.arena[id], w)
    ensures id in s'.arena &&
      (result <==> Contains(s.arena[id], w) || s'.arena[id].members == {} || IsCanonical(w, s.arena[id].canonical))
    ensures forall other :: other in s.arena && other != id ==>
      other in s'.arena && s'.arena[other] == s.arena[other] && (other in s'.live <==> other in s.live)
    ensures !result ==> written.None?
    ensures result ==> SaveOutcome(s', written)
  {
    s', result := RemoveWithoutSaving(s, id, w, false, folders);
    written := None;
    if result {
      written := SaveNow(s');
    }
  }

  /** The outcome of `merge` on a non-empty list: a new group with the next default
      name holds exactly the listed worlds, has resolved its canonical world over
      them, and every listed world is bound to it; every other group keeps its name
      and loses exactly the listed worlds, every other binding is kept, and a group
      none of the listed worlds was bound to does not change at all, while one
      that some were bound to is settled after each removal (`Drains`). No group
      becomes live except the new one. When no two listed names are equal up to
      case, the new group is live and its canonical world is the first listed world
      whose folder exists. */
  ghost predicate Merged(s: Registry, s': Registry, worlds: seq<string>, folders: set<string>) {
    && Inv(s') && s'.loaded == s.loaded
    && s'.counter == s.counter + 1 && s'.arena.Keys == s.arena.Keys + {s.counter}
    && s'.live <= s.live + {s.counter}
    && MergedGroup(s, s', worlds, folders)
    && TakenFromOthers(s, s', worlds)
    && SparedBy(s, s', worlds)
    && Drains(s, s', s.counter, LowerSet(worlds), folders)
  }

  ghost predicate MergedGroup(s: Registry, s': Registry, worlds: seq<string>, folders: set<string>)
    requires s.counter in s'.arena
  {
    var id := s.counter;
    && s'.arena[id].name == DefaultName(s.counter)
    && s'.arena[id].members == LowerSet(worlds)
    && Resolves(s'.arena[id].canonical, s'.arena[id].members, folders)
    && (DistinctIgnoreCase(worlds) ==> id in s'.live && s'.arena[id].canonical == FirstWithFolder(worlds, folders))
  }

  ghost predicate TakenFromOthers(s: Registry, s': Registry, worlds: seq<string>)
    requires s.arena.Keys <= s'.arena.Keys
  {
    Rebound(s, s', worlds) && Stripped(s, s', worlds)
  }

  /** Every group of `s` keeps its name and loses the listed worlds. */
  ghost predicate Stripped(s: Registry, s': Registry, worlds: seq<string>)
    requires s.arena.Keys <= s'.arena.Keys
  {
    forall other :: other in s.arena ==>
      s'.arena[other].name == s.arena[other].name &&
      s'.arena[other].members == s.arena[other].members - LowerSet(worlds)
  }

  /** Every listed world is bound to the group with id `s.counter`; every other
      binding is kept. */
  ghost predicate Rebound(s: Registry, s': Registry, worlds: seq<string>) {
    && s'.binding.Keys == s.binding.Keys + LowerSet(worlds)
    && (forall w :: w in worlds ==> s'.binding[Lower(w)] == s.counter)
    && (forall k :: k in s.binding && k !in LowerSet(worlds) ==> s'.binding[k] == s.binding[k])
  }

  lemma MergedAbsorbed(s: Registry, s1: Registry, s': Registry, worlds: seq<string>, folders: set<string>)
    requires Inv(s) && s1 == Construct(s, None)
    requires Absorbed(s1, s', s.counter, LowerSet(worlds), folders)
    requires DistinctIgnoreCase(worlds) ==> Undisturbed(s1, s', s.counter)
    requires Unresolved(s1, s.counter, worlds, folders) ==>
      s'.arena[s.counter].canonical == FirstWithFolder(worlds, folders)
    requires Spared(s1, s', s.counter, LowerSet(worlds))
    requires Drains(s1, s', s.counter, LowerSet(worlds), folders)
    ensures Merged(s, s', worlds, folders)
  {
    MergedAbsorbedGroup(s, s1, s', worlds, folders);
    MergedAbsorbedOthers(s, s1, s', worlds, folders);
    ConstructKeeps(s, None, DefaultName(s.counter));
    FreshSpared(s, s1, s', worlds);
    FreshDrains(s, s1, s', LowerSet(worlds), folders);
  }

  /** The new group of a merge holds exactly the listed worlds, with the canonical
      world `MergedGroup` states. */
  lemma MergedAbsorbedGroup(s: Registry, s1: Registry, s': Registry, worlds: seq<string>, folders: set<string>)
    requires Inv(s) && s1 == Construct(s, None)
    requires Absorbed(s1, s', s.counter, LowerSet(worlds), folders)
    requires DistinctIgnoreCase(worlds) ==> Undisturbed(s1, s', s.counter)
    requires Unresolved(s1, s.counter, worlds, folders) ==>
      s'.arena[s.counter].canonical == FirstWithFolder(worlds, folders)
    ensures s.counter in s'.arena && MergedGroup(s, s', worlds, folders)
  {
    if DistinctIgnoreCase(worlds) {
      assert NoneBoundTo(s1, worlds, s.counter);
      assert Unresolved(s1, s.counter, worlds, folders);
    }
  }

  /** A merge takes the listed worlds from the other groups and binds them to the
      new group. */
  lemma MergedAbsorbedOthers(s: Registry, s1: Registry, s': Registry, worlds: seq<string>, folders: set<string>)
    requires Inv(s) && s1 == Construct(s, None)
    requires Absorbed(s1, s', s.counter, LowerSet(worlds), folders)
    ensures s.arena.Keys <= s'.arena.Keys && TakenFromOthers(s, s', worlds)
    ensures s'.live <= s.live + {s.counter}
  {
  }

  /** `merge(worldnames)`: for a non-empty list, a new group without a canonical
      world takes every listed world with `addWithoutSaving`, then the registry is
      saved. An empty list changes nothing and saves nothing. */
  method Merge(s: Registry, worlds: seq<string>, folders: set<string>)
    returns (s': Registry, written: Option<Document>)
    requires Inv(s)
    ensures worlds == [] ==> s' == s && written.None?
    ensures worlds != [] ==> Merged(s, s', worlds, folders) && SaveOutcome(s', written)
  {
    if worlds == [] {
      return s, None;
    }
    var id := s.counter;
    var s1 := Construct(s, None);
    assert NoneBoundTo(s1, worlds, id);
    s' := AddAll(s1, id, worlds, folders);
    MergedAbsorbed(s, s1, s', worlds, folders);
    written := SaveNow(s');
  }

  /** A world that was grouped has been detached: it is the only member of a live
      group, and that group's canonical world is the world up to case. */
  ghost predicate Isolated(s: Registry, w: string) {
    && Lower(w) in s.binding
    && var g := s.binding[Lower(w)];
    && g in s.arena && g in s.live
    && s.arena[g].members == {Lower(w)}
    && IsCanonical(w, s.arena[g].canonical)
  }

  /** The state after detaching the worlds `ws` from `s0` one after another: every
      grouped world stays grouped, every group of `s0` keeps its name and has lost
      exactly the listed worlds, every listed world that was grouped is isolated
      in a group that did not exist in `s0`, and everything the listed worlds did
      not touch is kept (`DetachKept`). */
  ghost predicate Detached(s0: Registry, s: Registry, ws: seq<string>) {
    && Inv(s) && s.loaded == s0.loaded
    && s0.arena.Keys <= s.arena.Keys
    && s0.binding.Keys <= s.binding.Keys
    && (forall k :: Grouped(s0, k) ==> Grouped(s, k))
    && (forall g :: g in s0.arena ==>
          s.arena[g].name == s0.arena[g].name && s.arena[g].members == s0.arena[g].members - LowerSet(ws))
    && s0.counter <= s.counter
    && IsolatedFrom(s0, s, ws)
    && DetachKept(s0, s, ws)
  }

  /** A world that is not listed keeps its binding, a listed world is either still
      bound where it was or bound to a group that did not exist in `s0`, and a
      group none of the listed worlds was bound to does not change at all. */
  ghost predicate DetachKept(s0: Registry, s: Registry, ws: seq<string>) {
    BindingsKept(s0, s, ws) && GroupsKept(s0, s, ws)
  }

  ghost predicate BindingsKept(s0: Registry, s: Registry, ws: seq<string>) {
    && (forall k :: k in s0.binding && k !in LowerSet(ws) ==> k in s.binding && s.binding[k] == s0.binding[k])
    && (forall k :: k in s0.binding ==> k in s.binding && (s.binding[k] == s0.binding[k] || s.binding[k] !in s0.arena))
  }

  ghost predicate GroupsKept(s0: Registry, s: Registry, ws: seq<string>) {
    forall g :: g in s0.arena && Unreached(s0, g, LowerSet(ws)) ==>
      g in s.arena && s.arena[g] == s0.arena[g] && (g in s.live <==> g in s0.live)
  }

  /** Every listed world that was grouped in `s0` is isolated in `s`, in a group
      that did not exist in `s0`. */
  ghost predicate IsolatedFrom(s0: Registry, s: Registry, ws: seq<string>) {
    forall i :: 0 <= i < |ws| && Grouped(s0, Lower(ws[i])) ==>
      Isolated(s, ws[i]) && s.binding[Lower(ws[i])] !in s0.arena
  }

  lemma BindingsKeptStep(s0: Registry, prev: Registry, next: Registry, ws: seq<string>, i: nat)
    requires i < |ws| && prev.counter !in s0.arena && BindingsKept(s0, prev, ws[..i])
    requires next.binding == prev.binding || next.binding == prev.binding[Lower(ws[i]) := prev.counter]
    ensures BindingsKept(s0, next, ws[..i + 1])
  {
    LowerSetSnoc(ws, i);
  }

  lemma GroupsKeptStep(s0: Registry, prev: Registry, next: Registry, h: GroupId, ws: seq<string>, i: nat)
    requires i < |ws| && Lower(ws[i]) in s0.binding
    requires BindingsKept(s0, prev, ws[..i]) && GroupsKept(s0, prev, ws[..i])
    requires Lower(ws[i]) in prev.binding && prev.binding[Lower(ws[i])] == h
    requires forall other :: other in prev.arena && other != h ==>
      other in next.arena && next.arena[other] == prev.arena[other] && (other in next.live <==> other in prev.live)
    ensures GroupsKept(s0, next, ws[..i + 1])
  {
    LowerSetSnoc(ws, i);
    forall g | g in s0.arena && Unreached(s0, g, LowerSet(ws[..i + 1]))
      ensures g in next.arena && next.arena[g] == s0.arena[g] && (g in next.live <==> g in s0.live)
    {
      assert Unreached(s0, g, LowerSet(ws[..i]));
      assert g != h;
    }
  }

  /** What one `removeWithoutSaving(w, true)` on the group `h` that `w` is bound
      to does, as far as detaching needs it. */
  ghost predicate DetachStep(prev: Registry, next: Registry, h: GroupId, w: string, folders: set<string>)
    requires h in prev.arena && h in next.arena
  {
    && Inv(next) && next.loaded == prev.loaded && prev.arena.Keys <= next.arena.Keys
    && RemovalEffect(prev.arena[h], next.arena[h], h in prev.live, h in next.live, w, folders)
    && (forall other :: other in prev.arena && other != h ==>
          next.arena[other] == prev.arena[other] && (other in next.live <==> other in prev.live))
    && (Contains(prev.arena[h], w) ==>
          && next.counter == prev.counter + 1
          && next.arena.Keys == prev.arena.Keys + {prev.counter}
          && next.arena[prev.counter] == Group(DefaultName(prev.counter), {Lower(w)}, Some(w))
          && prev.counter in next.live
          && next.binding == prev.binding[Lower(w) := prev.counter])
    && (!Contains(prev.arena[h], w) ==>
          next.counter == prev.counter && next.arena.Keys == prev.arena.Keys && next.binding == prev.binding)
  }

  lemma DetachedGrouped(prev: Registry, next: Registry, h: GroupId, w: string, folders: set<string>)
    requires Inv(prev) && h in prev.arena && h in next.arena && Lower(w) in prev.binding && prev.binding[Lower(w)] == h
    requires DetachStep(prev, next, h, w, folders)
    ensures forall k :: Grouped(prev, k) ==> Grouped(next, k)
    ensures Grouped(prev, Lower(w)) ==> Isolated(next, w)
  {
    forall k | Grouped(prev, k)
      ensures Grouped(next, k)
    {
      var g := prev.binding[k];
      if k != Lower(w) {
        if g == h {
          assert k in next.arena[h].members;
        } else {
          assert next.arena[g] == prev.arena[g];
        }
      }
    }
    if Grouped(prev, Lower(w)) {
      LowerIdempotent(w);
    }
  }

  lemma DetachedIsolated(prev: Registry, next: Registry, h: GroupId, w: string, v: string, folders: set<string>)
    requires Inv(prev) && h in prev.arena && h in next.arena && Lower(w) in prev.binding && prev.binding[Lower(w)] == h
    requires DetachStep(prev, next, h, w, folders)
    requires Isolated(prev, v) && Lower(v) != Lower(w)
    ensures Isolated(next, v)
  {
    var g := prev.binding[Lower(v)];
    assert next.binding[Lower(v)] == g;
    if g == h {
      assert !IsCanonical(w, prev.arena[h].canonical);
      assert next.arena[h].members == {Lower(v)} - {Lower(w)} == {Lower(v)};
      assert h in next.live;
    }
  }

  lemma DetachedMembers(s0: Registry, prev: Registry, next: Registry, h: GroupId, ws: seq<string>, i: nat,
                        folders: set<string>)
    requires i < |ws| && Inv(prev) && h in prev.arena && h in next.arena
    requires Lower(ws[i]) in prev.binding && prev.binding[Lower(ws[i])] == h
    requires s0.arena.Keys <= prev.arena.Keys
    requires forall g :: g in s0.arena ==>
      prev.arena[g].name == s0.arena[g].name && prev.arena[g].members == s0.arena[g].members - LowerSet(ws[..i])
    requires DetachStep(prev, next, h, ws[i], folders)
    ensures forall g :: g in s0.arena ==>
      next.arena[g].name == s0.arena[g].name && next.arena[g].members == s0.arena[g].members - LowerSet(ws[..i + 1])
  {
    LowerSetSnoc(ws, i);
    var key := Lower(ws[i]);
    forall g | g in s0.arena
      ensures next.arena[g].members == s0.arena[g].members - LowerSet(ws[..i + 1])
    {
      if g == h {
        assert next.arena[h].members == prev.arena[h].members - {key};
        var a, b := s0.arena[g].members, LowerSet(ws[..i]);
        assert (a - b) - {key} == a - (b + {key});
      } else {
        assert next.arena[g] == prev.arena[g];
        assert key !in prev.arena[g].members;
      }
    }
  }

  lemma DetachedStep(s0: Registry, prev: Registry, next: Registry, h: GroupId, ws: seq<string>, i: nat,
                     folders: set<string>)
    requires Inv(s0) && i < |ws| && Lower(ws[i]) in s0.binding && Detached(s0, prev, ws[..i])
    requires h in prev.arena && h in next.arena && Lower(ws[i]) in prev.binding && prev.binding[Lower(ws[i])] == h
    requires DetachStep(prev, next, h, ws[i], folders)
    ensures Detached(s0, next, ws[..i + 1])
  {
    DetachedGrouped(prev, next, h, ws[i], folders);
    DetachedMembers(s0, prev, next, h, ws, i, folders);
    DetachedIsolatedAll(s0, prev, next, h, ws, i, folders);
    DetachKeptStep(s0, prev, next, h, ws, i, folders);
  }

  /** One detach step keeps the frame part of `Detached`. */
  lemma DetachKeptStep(s0: Registry, prev: Registry, next: Registry, h: GroupId, ws: seq<string>, i: nat,
                       folders: set<string>)
    requires Inv(s0) && i < |ws| && Lower(ws[i]) in s0.binding && s0.counter <= prev.counter
    requires DetachKept(s0, prev, ws[..i])
    requires h in prev.arena && h in next.arena && Lower(ws[i]) in prev.binding && prev.binding[Lower(ws[i])] == h
    requires DetachStep(prev, next, h, ws[i], folders)
    ensures DetachKept(s0, next, ws[..i + 1])
  {
    assert prev.counter !in s0.arena;
    BindingsKeptStep(s0, prev, next, ws, i);
    GroupsKeptStep(s0, prev, next, h, ws, i);
  }

  lemma DetachedIsolatedAll(s0: Registry, prev: Registry, next: Registry, h: GroupId, ws: seq<string>, i: nat,
                            folders: set<string>)
    requires Inv(s0) && Inv(prev) && i < |ws| && s0.counter <= prev.counter
    requires forall k :: Grouped(s0, k) ==> Grouped(prev, k)
    requires IsolatedFrom(s0, prev, ws[..i])
    requires h in prev.arena && h in next.arena && Lower(ws[i]) in prev.binding && prev.binding[Lower(ws[i])] == h
    requires DetachStep(prev, next, h, ws[i], folders)
    requires Grouped(prev, Lower(ws[i])) ==> Isolated(next, ws[i])
    ensures IsolatedFrom(s0, next, ws[..i + 1])
  {
    var w := ws[i];
    var done := ws[..i + 1];
    forall j | 0 <= j < |done| && Grouped(s0, Lower(done[j]))
      ensures Isolated(next, done[j]) && next.binding[Lower(done[j])] !in s0.arena
    {
      var v := ws[j];
      assert done[j] == v;
      if j < i && Lower(v) != Lower(w) {
        assert ws[..i][j] == v;
        DetachedIsolated(prev, next, h, w, v, folders);
      } else {
        DetachedIsolatedSelf(s0, prev, next, h, w, v, folders);
      }
    }
  }

  /** One iteration of the loop of `detach`. */
  method DetachNext(s0: Registry, s: Registry, ws: seq<string>, i: nat, folders: set<string>) returns (s': Registry)
    requires Inv(s0) && i < |ws| && Lower(ws[i]) in s0.binding && Detached(s0, s, ws[..i])
    ensures Detached(s0, s', ws[..i + 1])
  {
    s' := DetachWorld(s, ws[i], folders);
    DetachedStep(s0, s, s', s.binding[Lower(ws[i])], ws, i, folders);
  }

  lemma DetachedIsolatedSelf(s0: Registry, prev: Registry, next: Registry, h: GroupId, w: string, v: string,
                             folders: set<string>)
    requires Inv(s0) && s0.counter <= prev.counter && (forall k :: Grouped(s0, k) ==> Grouped(prev, k))
    requires h in prev.arena && h in next.arena && Lower(w) in prev.binding && prev.binding[Lower(w)] == h
    requires DetachStep(prev, next, h, w, folders)
    requires Grouped(prev, Lower(w)) ==> Isolated(next, w)
    requires Lower(v) == Lower(w) && Grouped(s0, Lower(v))
    ensures Isolated(next, v) && next.binding[Lower(v)] !in s0.arena
  {
    assert prev.counter !in s0.arena;
    assert Grouped(prev, Lower(w));
  }

  /** `removeWithoutSaving(world, true)` on the group the world is bound to. */
  method DetachWorld(s: Registry, w: string, folders: set<string>) returns (s': Registry)
    requires Inv(s) && Lower(w) in s.binding
    ensures s.binding[Lower(w)] in s.arena && s.binding[Lower(w)] in s'.arena
    ensures DetachStep(s, s', s.binding[Lower(w)], w, folders)
  {
    var ignored;
    s', ignored := RemoveWithoutSaving(s, s.binding[Lower(w)], w, true, folders);
  }

  /** `detach(worldnames)`: for a non-empty list, each listed world in turn is removed
      with `removeWithoutSaving(world, true)` from the group it is bound to, which
      puts a world that was a member into a fresh singleton group; then the registry
      is saved. Every listed world must be bound to a group. */
  method Detach(s: Registry, worlds: seq<string>, folders: set<string>)
    returns (s': Registry, written: Option<Document>)
    requires Inv(s)
    requires forall i :: 0 <= i < |worlds| ==> Lower(worlds[i]) in s.binding
    ensures worlds == [] ==> s' == s && written.None?
    ensures worlds != [] ==> Detached(s, s', worlds) && SaveOutcome(s', written)
  {
    if worlds == [] {
      return s, None;
    }
    s' := s;
    var i := 0;
    DetachedStart(s, worlds);
    while i < |worlds|
      invariant 0 <= i <= |worlds|
      invariant Detached(s, s', worlds[..i])
    {
      s' := DetachNext(s, s', worlds, i, folders);
      i := i + 1;
    }
    assert worlds[..i] == worlds;
    written := SaveNow(s');
  }

  /** Nothing has been detached yet. */
  lemma DetachedStart(s: Registry, ws: seq<string>)
    requires Inv(s)
    ensures Detached(s, s, ws[..0])
  {
    assert LowerSet(ws[..0]) == {};
  }

  /** The sections `load` accepts, in document order: those with a folder and a
      non-empty worlds list. */
  function Accepted(d: Document): (r: seq<Section>)
    ensures |r| <= |d|
    ensures forall i :: 0 <= i < |r| ==> r[i] in d && r[i].folder.Some? && r[i].worlds != []
  {
    if d == [] then []
    else
      var last := d[|d| - 1];
      Accepted(d[..|d| - 1]) + (if last.folder.Some? && last.worlds != [] then [last] else [])
  }

  /** The lower-cased worlds listed by the sections. */
  function AllKeys(a: seq<Section>): (r: set<string>)
    ensures forall i, w :: 0 <= i < |a| && w in a[i].worlds ==> Lower(w) in r
  {
    if a == [] then {} else AllKeys(a[..|a| - 1]) + LowerSet(a[|a| - 1].worlds)
  }

  /** The outcome of loading one accepted section: a new group with the next id,
      named after the section key, holds exactly the listed worlds and every listed
      world is bound to it; every other group keeps its name and loses the listed
      worlds; a group none of the listed worlds was bound to does not change at all,
      and one that some were bound to is settled after each removal (`Drains`).
      When no two listed names are equal up to case, the new group is live and
      keeps the section's folder as its canonical world. */
  ghost predicate Sectioned(s: Registry, s': Registry, sec: Section, folders: set<string>) {
    var id := s.counter;
    && Inv(s') && s'.loaded == s.loaded
    && s'.counter == s.counter + 1 && s'.arena.Keys == s.arena.Keys + {id}
    && s'.live <= s.live + {id}
    && s'.arena[id].name == sec.key
    && s'.arena[id].members == LowerSet(sec.worlds)
    && (DistinctIgnoreCase(sec.worlds) ==> id in s'.live && s'.arena[id].canonical == sec.folder)
    && TakenFromOthers(s, s', sec.worlds)
    && SparedBy(s, s', sec.worlds)
    && Drains(s, s', s.counter, LowerSet(sec.worlds), folders)
  }

  /** Every group to which none of the worlds was bound is unchanged, liveness
      included. */
  ghost predicate SparedBy(s: Registry, s': Registry, worlds: seq<string>) {
    forall g :: g in s.arena && Unreached(s, g, LowerSet(worlds)) ==>
      g in s'.arena && s'.arena[g] == s.arena[g] && (g in s'.live <==> g in s.live)
  }

  lemma SectionedAbsorbed(s: Registry, s1: Registry, s': Registry, sec: Section, folders: set<string>)
    requires Inv(s) && sec.folder.Some?
    requires s1 == Renamed(Construct(s, sec.folder), s.counter, sec.key)
    requires Absorbed(s1, s', s.counter, LowerSet(sec.worlds), folders)
    requires DistinctIgnoreCase(sec.worlds) ==> Undisturbed(s1, s', s.counter)
    requires Spared(s1, s', s.counter, LowerSet(sec.worlds))
    requires Drains(s1, s', s.counter, LowerSet(sec.worlds), folders)
    ensures Sectioned(s, s', sec, folders)
  {
    SectionedGroup(s, s1, s', sec, folders);
    SectionedOthers(s, s1, s', sec, folders);
    ConstructKeeps(s, sec.folder, sec.key);
    FreshSpared(s, s1, s', sec.worlds);
    FreshDrains(s, s1, s', LowerSet(sec.worlds), folders);
  }

  /** Constructing a group and renaming it leaves the other groups and every
      binding alone. */
  lemma ConstructKeeps(s: Registry, c: Option<string>, name: string)
    requires Inv(s)
    ensures var s1 := Construct(s, c);
      s1.binding == s.binding &&
      forall g :: g in s.arena ==> g in s1.arena && s1.arena[g] == s.arena[g] && (g in s1.live <==> g in s.live)
    ensures var s1 := Renamed(Construct(s, c), s.counter, name);
      s1.binding == s.binding &&
      forall g :: g in s.arena ==> g in s1.arena && s1.arena[g] == s.arena[g] && (g in s1.live <==> g in s.live)
  {
  }

  /** A new group was constructed in `s1` and `s'` spared, for the listed worlds,
      every other group of `s1`: then `s'` spared the groups of `s`. */
  lemma FreshSpared(s: Registry, s1: Registry, s': Registry, worlds: seq<string>)
    requires Inv(s) && s1.binding == s.binding
    requires forall g :: g in s.arena ==> g in s1.arena && s1.arena[g] == s.arena[g] && (g in s1.live <==> g in s.live)
    requires Spared(s1, s', s.counter, LowerSet(worlds))
    ensures SparedBy(s, s', worlds)
  {
    forall g | g in s.arena && Unreached(s, g, LowerSet(worlds))
      ensures g in s'.arena && s'.arena[g] == s.arena[g] && (g in s'.live <==> g in s.live)
    {
      assert g != s.counter;
      assert Unreached(s1, g, LowerSet(worlds));
    }
  }

  /** A new group was constructed in `s1` and `s'` drained, for the keys, every
      other group of `s1`: then `s'` drained the groups of `s`. */
  lemma FreshDrains(s: Registry, s1: Registry, s': Registry, keys: set<string>, folders: set<string>)
    requires Inv(s) && s1.binding == s.binding
    requires forall g :: g in s.arena ==> g in s1.arena && s1.arena[g] == s.arena[g] && (g in s1.live <==> g in s.live)
    requires Drains(s1, s', s.counter, keys, folders)
    ensures Drains(s, s', s.counter, keys, folders)
  {
    forall g | g in s.arena && g != s.counter && !Unreached(s, g, keys)
      ensures g in s'.arena
      ensures Drained(s.arena[g], s'.arena[g], g in s.live, g in s'.live, TakesCanonical(s, g, keys), folders)
    {
      assert !Unreached(s1, g, keys);
      assert TakesCanonical(s1, g, keys) == TakesCanonical(s, g, keys);
    }
  }

  /** The group of a loaded section holds exactly the listed worlds, named after the key. */
  lemma SectionedGroup(s: Registry, s1: Registry, s': Registry, sec: Section, folders: set<string>)
    requires Inv(s) && sec.folder.Some?
    requires s1 == Renamed(Construct(s, sec.folder), s.counter, sec.key)
    requires Absorbed(s1, s', s.counter, LowerSet(sec.worlds), folders)
    requires DistinctIgnoreCase(sec.worlds) ==> Undisturbed(s1, s', s.counter)
    ensures s.counter in s'.arena
    ensures s'.arena[s.counter].name == sec.key
    ensures s'.arena[s.counter].members == LowerSet(sec.worlds)
    ensures DistinctIgnoreCase(sec.worlds) ==> s.counter in s'.live && s'.arena[s.counter].canonical == sec.folder
  {
  }

  /** A loaded section takes its worlds from the other groups and binds them to its group. */
  lemma SectionedOthers(s: Registry, s1: Registry, s': Registry, sec: Section, folders: set<string>)
    requires Inv(s) && sec.folder.Some?
    requires s1 == Renamed(Construct(s, sec.folder), s.counter, sec.key)
    requires Absorbed(s1, s', s.counter, LowerSet(sec.worlds), folders)
    ensures s.arena.Keys <= s'.arena.Keys && TakenFromOthers(s, s', sec.worlds)
  {
  }

  /** One section of `load`: a group constructed with the section's folder as its
      canonical world, renamed to the section key, takes the listed worlds with
      `addWithoutSaving`. */
  method LoadSection(s: Registry, sec: Section, folders: set<string>) returns (s': Registry)
    requires Inv(s) && sec.folder.Some? && sec.worlds != []
    ensures Sectioned(s, s', sec, folders)
  {
    var id := s.counter;
    var s1 := Renamed(Construct(s, sec.folder), id, sec.key);
    assert NoneBoundTo(s1, sec.worlds, id);
    s' := AddAll(s1, id, sec.worlds, folders);
    SectionedAbsorbed(s, s1, s', sec, folders);
  }

  /** No accepted section after the k-th lists `w` (up to case). */
  ghost predicate LastListed(a: seq<Section>, k: nat, w: string) {
    forall j :: k < j < |a| ==> Lower(w) !in LowerSet(a[j].worlds)
  }

  /** The new groups of `load`, one per accepted section in `a`, have ids from
      `base` on and are named after their section keys. */
  ghost predicate LoadedNames(s: Registry, base: nat, a: seq<Section>) {
    forall k :: 0 <= k < |a| ==> NamedAfter(s, base, a, k)
  }

  ghost predicate NamedAfter(s: Registry, base: nat, a: seq<Section>, k: nat)
    requires k < |a|
  {
    base + k in s.arena && s.arena[base + k].name == a[k].key
  }

  /** A world keeps the group of the last section that lists it: it is bound to that
      group and is a member of it. */
  ghost predicate LoadedBindings(s: Registry, base: nat, a: seq<Section>) {
    forall k, w :: 0 <= k < |a| && w in a[k].worlds && LastListed(a, k, w) ==>
      Lower(w) in s.binding && s.binding[Lower(w)] == base + k &&
      base + k in s.arena && Lower(w) in s.arena[base + k].members
  }

  /** The groups that existed before `load` keep their names and lose every world
      an accepted section lists. */
  ghost predicate LoadedOld(s0: Registry, s: Registry, a: seq<Section>) {
    && s0.arena.Keys <= s.arena.Keys
    && forall g :: g in s0.arena ==>
         s.arena[g].name == s0.arena[g].name && s.arena[g].members == s0.arena[g].members - AllKeys(a)
  }

  lemma LoadedNamesStep(base: nat, prev: Registry, next: Registry, a: seq<Section>, sec: Section)
    requires prev.counter == base + |a| && LoadedNames(prev, base, a)
    requires prev.arena.Keys <= next.arena.Keys && Stripped(prev, next, sec.worlds)
    requires prev.counter in next.arena && next.arena[prev.counter].name == sec.key
    ensures LoadedNames(next, base, a + [sec])
  {
    var a' := a + [sec];
    forall k | 0 <= k < |a'|
      ensures NamedAfter(next, base, a', k)
    {
      if k < |a| {
        assert a'[k] == a[k];
        assert NamedAfter(prev, base, a, k);
      }
    }
  }

  lemma LoadedBindingsStep(base: nat, prev: Registry, next: Registry, a: seq<Section>, sec: Section,
                           folders: set<string>)
    requires prev.counter == base + |a| && LoadedNames(prev, base, a) && LoadedBindings(prev, base, a)
    requires Sectioned(prev, next, sec, folders)
    ensures LoadedBindings(next, base, a + [sec])
  {
    var a' := a + [sec];
    forall k, w | 0 <= k < |a'| && w in a'[k].worlds && LastListed(a', k, w)
      ensures Lower(w) in next.binding && next.binding[Lower(w)] == base + k
      ensures base + k in next.arena && Lower(w) in next.arena[base + k].members
    {
      if k < |a| {
        assert a'[k] == a[k];
        assert LastListed(a, k, w) by {
          forall j | k < j < |a|
            ensures Lower(w) !in LowerSet(a[j].worlds)
          {
            assert a'[j] == a[j];
          }
        }
        assert a'[|a|] == sec;
        assert Lower(w) !in LowerSet(sec.worlds);
      } else {
        assert a'[k] == sec;
      }
    }
  }

  lemma AllKeysSnoc(a: seq<Section>, sec: Section)
    ensures AllKeys(a + [sec]) == AllKeys(a) + LowerSet(sec.worlds)
  {
    assert (a + [sec])[..|a|] == a;
  }

  lemma LoadedOldStep(s0: Registry, prev: Registry, next: Registry, a: seq<Section>, sec: Section)
    requires LoadedOld(s0, prev, a)
    requires prev.arena.Keys <= next.arena.Keys && Stripped(prev, next, sec.worlds)
    ensures LoadedOld(s0, next, a + [sec])
  {
    AllKeysSnoc(a, sec);
    forall g | g in s0.arena
      ensures next.arena[g].members == s0.arena[g].members - AllKeys(a + [sec])
    {
      var m, b := s0.arena[g].members, AllKeys(a);
      assert (m - b) - LowerSet(sec.worlds) == m - (b + LowerSet(sec.worlds));
    }
  }

  /** Each new group holds exactly the worlds its section lists and no later
      accepted section lists. */
  ghost predicate LoadedMembers(s: Registry, base: nat, a: seq<Section>) {
    forall k :: 0 <= k < |a| ==> HoldsSection(s, base, a, k)
  }

  ghost predicate HoldsSection(s: Registry, base: nat, a: seq<Section>, k: nat)
    requires k < |a|
  {
    base + k in s.arena && s.arena[base + k].members == LowerSet(a[k].worlds) - AllKeys(a[k + 1..])
  }

  /** A world bound to one of the new groups is listed by that group's section. */
  ghost predicate LoadedBound(s: Registry, base: nat, a: seq<Section>) {
    forall key :: key in s.binding && base <= s.binding[key] < base + |a| ==>
      key in LowerSet(a[s.binding[key] - base].worlds)
  }

  /** The k-th accepted section lists no world twice (up to case) and shares no
      world with a later accepted section. */
  ghost predicate Clean(a: seq<Section>, k: nat)
    requires k < |a|
  {
    DistinctIgnoreCase(a[k].worlds) && LowerSet(a[k].worlds) !! AllKeys(a[k + 1..])
  }

  /** The new group of a clean section is live and keeps the section's folder as
      its canonical world. */
  ghost predicate LoadedKept(s: Registry, base: nat, a: seq<Section>) {
    forall k :: 0 <= k < |a| && Clean(a, k) ==>
      base + k in s.live && base + k in s.arena && s.arena[base + k].canonical == a[k].folder
  }

  lemma LoadedMembersStep(base: nat, prev: Registry, next: Registry, a: seq<Section>, sec: Section)
    requires prev.counter == base + |a| && LoadedMembers(prev, base, a)
    requires prev.arena.Keys <= next.arena.Keys && Stripped(prev, next, sec.worlds)
    requires prev.counter in next.arena && next.arena[prev.counter].members == LowerSet(sec.worlds)
    ensures LoadedMembers(next, base, a + [sec])
  {
    forall k | 0 <= k < |a + [sec]| {
      LoadedMemberAt(base, prev, next, a, sec, k);
    }
  }

  lemma LoadedMemberAt(base: nat, prev: Registry, next: Registry, a: seq<Section>, sec: Section, k: nat)
    requires prev.counter == base + |a| && LoadedMembers(prev, base, a)
    requires prev.arena.Keys <= next.arena.Keys && Stripped(prev, next, sec.worlds)
    requires prev.counter in next.arena && next.arena[prev.counter].members == LowerSet(sec.worlds)
    requires k <= |a|
    ensures HoldsSection(next, base, a + [sec], k)
  {
    var a' := a + [sec];
    if k < |a| {
      assert a'[k] == a[k];
      assert a'[k + 1..] == a[k + 1..] + [sec];
      AllKeysSnoc(a[k + 1..], sec);
      var m, b := LowerSet(a[k].worlds), AllKeys(a[k + 1..]);
      assert HoldsSection(prev, base, a, k);
      assert (m - b) - LowerSet(sec.worlds) == m - (b + LowerSet(sec.worlds));
    } else {
      assert a'[k] == sec && a'[k + 1..] == [];
      assert AllKeys([]) == {};
    }
  }

  lemma LoadedBoundStep(base: nat, prev: Registry, next: Registry, a: seq<Section>, sec: Section)
    requires forall key :: key in prev.binding ==> base <= prev.binding[key] ==> prev.binding[key] < base + |a|
    requires prev.counter == base + |a| && LoadedBound(prev, base, a)
    requires Rebound(prev, next, sec.worlds)
    ensures LoadedBound(next, base, a + [sec])
  {
    var a' := a + [sec];
    forall key | key in next.binding && base <= next.binding[key] < base + |a'|
      ensures key in LowerSet(a'[next.binding[key] - base].worlds)
    {
      if key in LowerSet(sec.worlds) {
        var w :| w in sec.worlds && Lower(w) == key;
        assert next.binding[key] == prev.counter;
        assert a'[|a|] == sec;
      } else {
        var id := prev.binding[key];
        assert next.binding[key] == id;
        assert a'[id - base] == a[id - base];
      }
    }
  }

  lemma LoadedKeptStep(base: nat, prev: Registry, next: Registry, a: seq<Section>, sec: Section)
    requires prev.counter == base + |a| && LoadedBound(prev, base, a)
    requires LoadedNames(prev, base, a) && LoadedKept(prev, base, a)
    requires SparedBy(prev, next, sec.worlds)
    requires DistinctIgnoreCase(sec.worlds) ==>
      prev.counter in next.live && prev.counter in next.arena && next.arena[prev.counter].canonical == sec.folder
    ensures LoadedKept(next, base, a + [sec])
  {
    forall k | 0 <= k < |a + [sec]| && Clean(a + [sec], k) {
      LoadedKeptAt(base, prev, next, a, sec, k);
    }
  }

  lemma LoadedKeptAt(base: nat, prev: Registry, next: Registry, a: seq<Section>, sec: Section, k: nat)
    requires prev.counter == base + |a| && LoadedBound(prev, base, a)
    requires LoadedNames(prev, base, a) && LoadedKept(prev, base, a)
    requires SparedBy(prev, next, sec.worlds)
    requires DistinctIgnoreCase(sec.worlds) ==>
      prev.counter in next.live && prev.counter in next.arena && next.arena[prev.counter].canonical == sec.folder
    requires k <= |a| && Clean(a + [sec], k)
    ensures base + k in next.live && base + k in next.arena
    ensures next.arena[base + k].canonical == (a + [sec])[k].folder
  {
    var a' := a + [sec];
    if k < |a| {
      assert a'[k] == a[k];
      assert a'[k + 1..] == a[k + 1..] + [sec];
      AllKeysSnoc(a[k + 1..], sec);
      assert Clean(a, k);
      var g := base + k;
      assert g in prev.arena;
      assert Unreached(prev, g, LowerSet(sec.worlds)) by {
        forall key | key in LowerSet(sec.worlds) && key in prev.binding
          ensures prev.binding[key] != g
        {
          assert key !in LowerSet(a[k].worlds);
        }
      }
    } else {
      assert a'[k] == sec;
    }
  }

  /** Every world an accepted section lists is bound to one of the new groups (ids
      from `s0.counter` on); every other binding of `s0` is kept. */
  ghost predicate LoadedRebound(s0: Registry, s: Registry, a: seq<Section>) {
    && s.binding.Keys == s0.binding.Keys + AllKeys(a)
    && (forall k :: k in s0.binding && k !in AllKeys(a) ==> s.binding[k] == s0.binding[k])
    && (forall k :: k in AllKeys(a) ==> s.binding[k] >= s0.counter)
  }

  /** A group of `s0` that no listed world was bound to is unchanged, liveness
      included. */
  ghost predicate LoadedSpared(s0: Registry, s: Registry, a: seq<Section>) {
    forall g :: g in s0.arena && Unreached(s0, g, AllKeys(a)) ==>
      g in s.arena && s.arena[g] == s0.arena[g] && (g in s.live <==> g in s0.live)
  }

  lemma LoadedReboundStep(s0: Registry, prev: Registry, next: Registry, a: seq<Section>, sec: Section)
    requires s0.counter <= prev.counter && LoadedRebound(s0, prev, a) && Rebound(prev, next, sec.worlds)
    ensures LoadedRebound(s0, next, a + [sec])
  {
    AllKeysSnoc(a, sec);
    forall k | k in AllKeys(a + [sec])
      ensures next.binding[k] >= s0.counter
    {
      if k in LowerSet(sec.worlds) {
        var w :| w in sec.worlds && Lower(w) == k;
      }
    }
  }

  lemma LoadedSparedStep(s0: Registry, prev: Registry, next: Registry, a: seq<Section>, sec: Section)
    requires forall g :: g in s0.arena ==> g < s0.counter
    requires LoadedRebound(s0, prev, a) && LoadedSpared(s0, prev, a) && SparedBy(prev, next, sec.worlds)
    ensures LoadedSpared(s0, next, a + [sec])
  {
    AllKeysSnoc(a, sec);
    forall g | g in s0.arena && Unreached(s0, g, AllKeys(a + [sec]))
      ensures g in next.arena && next.arena[g] == s0.arena[g] && (g in next.live <==> g in s0.live)
    {
      assert Unreached(s0, g, AllKeys(a));
      assert Unreached(prev, g, LowerSet(sec.worlds)) by {
        forall key | key in LowerSet(sec.worlds) && key in prev.binding
          ensures prev.binding[key] != g
        {
          if key !in AllKeys(a) {
            assert key in s0.binding;
          }
        }
      }
    }
  }

  /** How a section with keys `S` reaches group `g` of `s0`, after `load` has read
      sections with keys `K` since `s0`: a key of `S` bound to `g` before the
      section is not in `K` and was bound to `g` in `s0`, and the other way round. */
  ghost predicate ReachedVia(s0: Registry, prev: Registry, g: GroupId, K: set<string>, S: set<string>) {
    && (forall k :: k in S && k in prev.binding && prev.binding[k] == g ==>
          k !in K && k in s0.binding && s0.binding[k] == g)
    && (forall k :: k in S && k !in K && k in s0.binding && s0.binding[k] == g ==>
          k in prev.binding && prev.binding[k] == g)
  }

  lemma ReachedViaRebound(s0: Registry, prev: Registry, g: GroupId, a: seq<Section>, S: set<string>)
    requires g < s0.counter && LoadedRebound(s0, prev, a)
    ensures ReachedVia(s0, prev, g, AllKeys(a), S)
  {
  }

  lemma LoadedDrainsStep(s0: Registry, prev: Registry, next: Registry, a: seq<Section>, sec: Section,
                         folders: set<string>)
    requires forall g :: g in s0.arena ==> g < s0.counter
    requires prev.counter !in prev.arena
    requires forall g, m :: g in prev.arena && m in prev.arena[g].members ==>
      Lower(m) == m && m in prev.binding && prev.binding[m] == g
    requires s0.arena.Keys <= prev.arena.Keys && prev.arena.Keys <= next.arena.Keys
    requires LoadedRebound(s0, prev, a) && LoadedSpared(s0, prev, a)
    requires Drains(s0, prev, s0.counter, AllKeys(a), folders)
    requires SparedBy(prev, next, sec.worlds) && Stripped(prev, next, sec.worlds)
    requires Drains(prev, next, prev.counter, LowerSet(sec.worlds), folders)
    ensures Drains(s0, next, s0.counter, AllKeys(a + [sec]), folders)
  {
    var K, S := AllKeys(a), LowerSet(sec.worlds);
    AllKeysSnoc(a, sec);
    LoadedDrainsUntouched(s0, prev, next, a, sec, folders);
    LoadedDrainsFirst(s0, prev, next, a, sec, folders);
    LoadedDrainsAgain(s0, prev, next, a, sec, folders);
    forall g | g in s0.arena && g != s0.counter && !Unreached(s0, g, K + S)
      ensures g in next.arena
      ensures Drained(s0.arena[g], next.arena[g], g in s0.live, g in next.live, TakesCanonical(s0, g, K + S), folders)
    {
      if Unreached(prev, g, S) {
      } else if Unreached(s0, g, K) {
      } else {
      }
    }
  }

  // The proof of `LoadedDrainsStep` by cases on whether the sections read before
  // (`K`) and the next section (`S`) reach a group of `s0`. The `Loaded…` lemmas
  // state each case for all groups; the `Drain…` lemmas prove it for one group.

  /** The groups of `s0` the next section does not reach. */
  lemma LoadedDrainsUntouched(s0: Registry, prev: Registry, next: Registry, a: seq<Section>, sec: Section,
                              folders: set<string>)
    requires forall g :: g in s0.arena ==> g < s0.counter
    requires s0.arena.Keys <= prev.arena.Keys
    requires LoadedRebound(s0, prev, a)
    requires Drains(s0, prev, s0.counter, AllKeys(a), folders)
    requires SparedBy(prev, next, sec.worlds)
    ensures forall g | g in s0.arena && !Unreached(s0, g, AllKeys(a) + LowerSet(sec.worlds)) &&
                       Unreached(prev, g, LowerSet(sec.worlds)) ::
        g in next.arena &&
        Drained(s0.arena[g], next.arena[g], g in s0.live, g in next.live,
                TakesCanonical(s0, g, AllKeys(a) + LowerSet(sec.worlds)), folders)
  {
    var K, S := AllKeys(a), LowerSet(sec.worlds);
    forall g | g in s0.arena && !Unreached(s0, g, K + S) && Unreached(prev, g, S)
      ensures g in next.arena
      ensures Drained(s0.arena[g], next.arena[g], g in s0.live, g in next.live, TakesCanonical(s0, g, K + S), folders)
    {
      ReachedViaRebound(s0, prev, g, a, S);
      DrainUntouched(s0, prev, next, g, K, S, folders);
    }
  }

  /** The groups of `s0` the next section is the first to reach. */
  lemma LoadedDrainsFirst(s0: Registry, prev: Registry, next: Registry, a: seq<Section>, sec: Section,
                          folders: set<string>)
    requires forall g :: g in s0.arena ==> g < s0.counter
    requires prev.counter !in prev.arena
    requires s0.arena.Keys <= prev.arena.Keys
    requires LoadedRebound(s0, prev, a) && LoadedSpared(s0, prev, a)
    requires Drains(prev, next, prev.counter, LowerSet(sec.worlds), folders)
    ensures forall g | g in s0.arena && Unreached(s0, g, AllKeys(a)) &&
                       !Unreached(prev, g, LowerSet(sec.worlds)) ::
        g in next.arena &&
        Drained(s0.arena[g], next.arena[g], g in s0.live, g in next.live,
                TakesCanonical(s0, g, AllKeys(a) + LowerSet(sec.worlds)), folders)
  {
    var K, S := AllKeys(a), LowerSet(sec.worlds);
    forall g | g in s0.arena && Unreached(s0, g, K) && !Unreached(prev, g, S)
      ensures g in next.arena
      ensures Drained(s0.arena[g], next.arena[g], g in s0.live, g in next.live, TakesCanonical(s0, g, K + S), folders)
    {
      ReachedViaRebound(s0, prev, g, a, S);
      DrainFirst(s0, prev, next, g, K, S, folders);
    }
  }

  /** The groups of `s0` reached both before and by the next section. */
  lemma LoadedDrainsAgain(s0: Registry, prev: Registry, next: Registry, a: seq<Section>, sec: Section,
                          folders: set<string>)
    requires forall g :: g in s0.arena ==> g < s0.counter
    requires prev.counter !in prev.arena
    requires forall g | g in prev.arena && prev.arena[g].canonical.Some? &&
                        prev.arena[g].canonical.value in prev.arena[g].members ::
      prev.arena[g].canonical.value in prev.binding && prev.binding[prev.arena[g].canonical.value] == g
    requires s0.arena.Keys <= prev.arena.Keys && prev.arena.Keys <= next.arena.Keys
    requires LoadedRebound(s0, prev, a)
    requires Drains(s0, prev, s0.counter, AllKeys(a), folders)
    requires Stripped(prev, next, sec.worlds)
    requires Drains(prev, next, prev.counter, LowerSet(sec.worlds), folders)
    ensures forall g | g in s0.arena && !Unreached(s0, g, AllKeys(a)) &&
                       !Unreached(prev, g, LowerSet(sec.worlds)) ::
        g in next.arena &&
        Drained(s0.arena[g], next.arena[g], g in s0.live, g in next.live,
                TakesCanonical(s0, g, AllKeys(a) + LowerSet(sec.worlds)), folders)
  {
    var K, S := AllKeys(a), LowerSet(sec.worlds);
    forall g | g in s0.arena && !Unreached(s0, g, K) && !Unreached(prev, g, S)
      ensures g in next.arena
      ensures Drained(s0.arena[g], next.arena[g], g in s0.live, g in next.live, TakesCanonical(s0, g, K + S), folders)
    {
      ReachedViaRebound(s0, prev, g, a, S);
      DrainAgain(s0, prev, next, g, K, S, folders);
    }
  }

  /** A group the next section does not reach stays as settled as it was. */
  lemma DrainUntouched(s0: Registry, prev: Registry, next: Registry, g: GroupId, K: set<string>, S: set<string>,
                       folders: set<string>)
    requires g in s0.arena && g in prev.arena && g in next.arena && ReachedVia(s0, prev, g, K, S)
    requires !Unreached(s0, g, K + S) && Unreached(prev, g, S)
    requires !Unreached(s0, g, K) ==>
      Drained(s0.arena[g], prev.arena[g], g in s0.live, g in prev.live, TakesCanonical(s0, g, K), folders)
    requires next.arena[g] == prev.arena[g] && (g in next.live <==> g in prev.live)
    ensures Drained(s0.arena[g], next.arena[g], g in s0.live, g in next.live, TakesCanonical(s0, g, K + S), folders)
  {
    assert !Unreached(s0, g, K) by {
      var k :| k in K + S && k in s0.binding && s0.binding[k] == g;
    }
    assert TakesCanonical(s0, g, K + S) == TakesCanonical(s0, g, K) by {
      if TakesCanonical(s0, g, K + S) {
        var k :| k in K + S && k in s0.binding && s0.binding[k] == g && IsCanonical(k, s0.arena[g].canonical);
      }
    }
  }

  /** A group first reached by the next section is settled by it alone. */
  lemma DrainFirst(s0: Registry, prev: Registry, next: Registry, g: GroupId, K: set<string>, S: set<string>,
                   folders: set<string>)
    requires g in s0.arena && g in prev.arena && g in next.arena && ReachedVia(s0, prev, g, K, S)
    requires Unreached(s0, g, K) && !Unreached(prev, g, S)
    requires prev.arena[g] == s0.arena[g] && (g in prev.live <==> g in s0.live)
    requires Drained(prev.arena[g], next.arena[g], g in prev.live, g in next.live, TakesCanonical(prev, g, S), folders)
    ensures Drained(s0.arena[g], next.arena[g], g in s0.live, g in next.live, TakesCanonical(s0, g, K + S), folders)
  {
    assert !TakesCanonical(s0, g, K);
    TakesCanonicalVia(s0, prev, g, K, S);
  }

  /** A group reached before and again: the two settlings compose. */
  lemma DrainAgain(s0: Registry, prev: Registry, next: Registry, g: GroupId, K: set<string>, S: set<string>,
                   folders: set<string>)
    requires g in s0.arena && g in prev.arena && g in next.arena && ReachedVia(s0, prev, g, K, S)
    requires !Unreached(s0, g, K) && !Unreached(prev, g, S)
    requires Drained(s0.arena[g], prev.arena[g], g in s0.live, g in prev.live, TakesCanonical(s0, g, K), folders)
    requires Drained(prev.arena[g], next.arena[g], g in prev.live, g in next.live, TakesCanonical(prev, g, S), folders)
    requires next.arena[g].members == prev.arena[g].members - S
    requires var x := prev.arena[g].canonical;
      x.Some? && x.value in prev.arena[g].members ==> x.value in prev.binding && prev.binding[x.value] == g
    ensures Drained(s0.arena[g], next.arena[g], g in s0.live, g in next.live, TakesCanonical(s0, g, K + S), folders)
  {
    var x := prev.arena[g].canonical;
    var h1, h2 := TakesCanonical(s0, g, K), TakesCanonical(prev, g, S);
    if x.Some? && x.value in prev.arena[g].members && x.value in S {
      assert IsCanonical(x.value, x);
      assert h2;
    }
    if h1 {
      var k :| k in K && k in s0.binding && s0.binding[k] == g && IsCanonical(k, s0.arena[g].canonical);
      assert TakesCanonical(s0, g, K + S);
    } else {
      TakesCanonicalVia(s0, prev, g, K, S);
    }
    DrainedTrans(s0.arena[g], prev.arena[g], next.arena[g], g in s0.live, g in prev.live, g in next.live,
                 h1, h2, folders);
  }

  /** When the sections read so far have not hit the canonical world of `g`, the
      next section hits it exactly when it does as measured before the section. */
  lemma TakesCanonicalVia(s0: Registry, prev: Registry, g: GroupId, K: set<string>, S: set<string>)
    requires g in s0.arena && g in prev.arena && ReachedVia(s0, prev, g, K, S)
    requires !TakesCanonical(s0, g, K) && prev.arena[g].canonical == s0.arena[g].canonical
    ensures TakesCanonical(s0, g, K + S) == TakesCanonical(prev, g, S)
  {
    if TakesCanonical(s0, g, K + S) {
      var k :| k in K + S && k in s0.binding && s0.binding[k] == g && IsCanonical(k, s0.arena[g].canonical);
      assert k in S && k !in K;
    }
    if TakesCanonical(prev, g, S) {
      var k :| k in S && k in prev.binding && prev.binding[k] == g && IsCanonical(k, prev.arena[g].canonical);
      assert k in s0.binding && s0.binding[k] == g;
    }
  }

  /** Whether some live group would be written by `save`. */
  predicate RequiresSaving(s: Registry) {
    exists id :: id in s.live && id in s.arena && IsRequiredSaving(s.arena[id])
  }

  /** `load` saves again exactly when a save of the registry it started from would
      write at least one section. */
  lemma RequiresSavingWrites(s: Registry, d: Document, order: seq<GroupId>)
    requires SavedAs(s, d, order)
    ensures RequiresSaving(s) <==> d != []
  {
    if RequiresSaving(s) {
      var id :| id in s.live && id in s.arena && IsRequiredSaving(s.arena[id]);
      assert id in order;
    }
    if d != [] {
      assert order[0] in s.live && order[0] in s.arena && IsRequiredSaving(s.arena[order[0]]);
    }
  }

  /** The state of `load` from `s0` once the accepted sections `a` have been read. */
  ghost predicate LoadedUpTo(s0: Registry, s: Registry, a: seq<Section>, folders: set<string>) {
    && Inv(s) && s.loaded
    && s.counter == s0.counter + |a|
    && LoadedNames(s, s0.counter, a)
    && LoadedBindings(s, s0.counter, a)
    && LoadedOld(s0, s, a)
    && LoadedMembers(s, s0.counter, a)
    && LoadedBound(s, s0.counter, a)
    && LoadedKept(s, s0.counter, a)
    && LoadedRebound(s0, s, a)
    && LoadedSpared(s0, s, a)
    && Drains(s0, s, s0.counter, AllKeys(a), folders)
  }

  lemma AcceptedSnoc(doc: Document, i: nat)
    requires i < |doc|
    ensures Accepted(doc[..i + 1]) ==
      Accepted(doc[..i]) + (if doc[i].folder.Some? && doc[i].worlds != [] then [doc[i]] else [])
  {
    assert doc[..i + 1][..i] == doc[..i];
  }

  /** Reads section i of the document, when `load` accepts it. */
  method LoadStep(s0: Registry, s: Registry, doc: Document, i: nat, folders: set<string>) returns (s': Registry)
    requires Inv(s0) && i < |doc| && LoadedUpTo(s0, s, Accepted(doc[..i]), folders)
    ensures LoadedUpTo(s0, s', Accepted(doc[..i + 1]), folders)
  {
    var sec := doc[i];
    var a := Accepted(doc[..i]);
    AcceptedSnoc(doc, i);
    if sec.folder.Some? && sec.worlds != [] {
      assert Accepted(doc[..i + 1]) == a + [sec];
      s' := LoadSection(s, sec, folders);
      LoadedStep(s0, s, s', a, sec, folders);
    } else {
      assert Accepted(doc[..i + 1]) == a + [];
      assert a + [] == a;
      s' := s;
    }
  }

  /** Reading one more accepted section keeps the state of `load` described. */
  lemma LoadedStep(s0: Registry, s: Registry, s': Registry, a: seq<Section>, sec: Section,
                   folders: set<string>)
    requires Inv(s0) && LoadedUpTo(s0, s, a, folders) && Sectioned(s, s', sec, folders)
    ensures LoadedUpTo(s0, s', a + [sec], folders)
  {
    LoadedGroupsStep(s0, s, s', a, sec, folders);
    LoadedFacts(s0, s, a, folders);
    SectionedFacts(s, s', sec, folders);
    LoadedOriginsStep(s0, s, s', a, sec, folders);
  }

  /** The facts about the state of `load` that `LoadedOriginsStep` needs. */
  lemma LoadedFacts(s0: Registry, s: Registry, a: seq<Section>, folders: set<string>)
    requires Inv(s0) && LoadedUpTo(s0, s, a, folders)
    ensures forall g :: g in s0.arena ==> g < s0.counter
    ensures s0.counter <= s.counter && s.counter !in s.arena && s0.arena.Keys <= s.arena.Keys
    ensures forall g, m :: g in s.arena && m in s.arena[g].members ==>
      Lower(m) == m && m in s.binding && s.binding[m] == g
  {
  }

  /** The facts about one section read that `LoadedOriginsStep` needs. */
  lemma SectionedFacts(s: Registry, s': Registry, sec: Section, folders: set<string>)
    requires Sectioned(s, s', sec, folders)
    ensures s.arena.Keys <= s'.arena.Keys
    ensures Rebound(s, s', sec.worlds) && SparedBy(s, s', sec.worlds) && Stripped(s, s', sec.worlds)
    ensures Drains(s, s', s.counter, LowerSet(sec.worlds), folders)
  {
  }

  /** One more section keeps the part of `LoadedUpTo` about the new groups. */
  lemma LoadedGroupsStep(s0: Registry, s: Registry, s': Registry, a: seq<Section>, sec: Section,
                         folders: set<string>)
    requires LoadedUpTo(s0, s, a, folders) && Sectioned(s, s', sec, folders)
    ensures LoadedNames(s', s0.counter, a + [sec]) && LoadedBindings(s', s0.counter, a + [sec])
    ensures LoadedOld(s0, s', a + [sec]) && LoadedMembers(s', s0.counter, a + [sec])
    ensures LoadedBound(s', s0.counter, a + [sec]) && LoadedKept(s', s0.counter, a + [sec])
  {
    LoadedNamesStep(s0.counter, s, s', a, sec);
    LoadedBindingsStep(s0.counter, s, s', a, sec, folders);
    LoadedOldStep(s0, s, s', a, sec);
    LoadedMembersStep(s0.counter, s, s', a, sec);
    assert forall key :: key in s.binding ==> s.binding[key] in s.arena;
    LoadedBoundStep(s0.counter, s, s', a, sec);
    LoadedKeptStep(s0.counter, s, s', a, sec);
  }

  /** One more section keeps the part of `LoadedUpTo` about the groups of `s0`. */
  lemma LoadedOriginsStep(s0: Registry, s: Registry, s': Registry, a: seq<Section>, sec: Section,
                          folders: set<string>)
    requires forall g :: g in s0.arena ==> g < s0.counter
    requires s0.counter <= s.counter && s.counter !in s.arena
    requires forall g, m :: g in s.arena && m in s.arena[g].members ==>
      Lower(m) == m && m in s.binding && s.binding[m] == g
    requires s0.arena.Keys <= s.arena.Keys && s.arena.Keys <= s'.arena.Keys
    requires LoadedRebound(s0, s, a) && LoadedSpared(s0, s, a) && Drains(s0, s, s0.counter, AllKeys(a), folders)
    requires Rebound(s, s', sec.worlds) && SparedBy(s, s', sec.worlds) && Stripped(s, s', sec.worlds)
    requires Drains(s, s', s.counter, LowerSet(sec.worlds), folders)
    ensures LoadedRebound(s0, s', a + [sec]) && LoadedSpared(s0, s', a + [sec])
    ensures Drains(s0, s', s0.counter, AllKeys(a + [sec]), folders)
  {
    LoadedReboundStep(s0, s, s', a, sec);
    LoadedSparedStep(s0, s, s', a, sec);
    LoadedDrainsStep(s0, s, s', a, sec, folders);
  }

  /** Nothing has been read yet. */
  lemma LoadStart(s: Registry, doc: Document, folders: set<string>)
    requires Inv(s)
    ensures LoadedUpTo(s, s.(loaded := true), Accepted(doc[..0]), folders)
  {
    assert doc[..0] == [];
    assert AllKeys([]) == {};
  }

  /** `load()`: marks the registry loaded, then reads the accepted sections in
      document order, each into a new group named after its key (a world listed by
      several sections ends up in the last one's group); the groups that existed
      before lose every listed world, and those no listed world was bound to do not
      change at all; a world no section lists keeps its binding. The registry is saved again exactly when some
      live group required saving before the load. */
  method Load(s: Registry, doc: Document, folders: set<string>)
    returns (s': Registry, written: Option<Document>)
    requires Inv(s)
    ensures LoadedUpTo(s, s', Accepted(doc), folders)
    ensures written.Some? <==> RequiresSaving(s)
    ensures written.Some? ==> SaveOutcome(s', written)
  {
    var hadRequired := RequiresSaving(s);
    s' := s.(loaded := true);
    LoadStart(s, doc, folders);
    var i := 0;
    while i < |doc|
      invariant 0 <= i <= |doc|
      invariant LoadedUpTo(s, s', Accepted(doc[..i]), folders)
    {
      s' := LoadStep(s, s', doc, i, folders);
      i := i + 1;
    }
    assert doc[..i] == doc;
    written := None;
    if hadRequired {
      written := SaveNow(s');
    }
  }
}

=== FILE: persistence.dfy ===
/** The persisted form of the registry: which groups `save` writes, under which
    section keys, and what each section holds.

    The document is a value here: `save` produces it and `load` consumes it.
    Reading and writing the file itself is not modelled.
 */
module Persistence {
  import opened Wrappers
  import opened Strings
  import opened Collections
  import opened Inventories

  /** One section of the document: its key, the `folder` value (None when the
      value is missing or null) and the `worlds` list. */
  datatype Section = Section(key: string, folder: Option<string>, worlds: seq<string>)

  type Document = seq<Section>

  /** The i-th alternative key tried for a group named `base`: the name followed by i. */
  function Candidate(base: string, i: nat): (r: string) {
    base + NatToString(i)
  }

  /** The lower-cased keys of the sections written so far. */
  function UsedKeys(d: Document): (r: set<string>) {
    set i | 0 <= i < |d| :: Lower(d[i].key)
  }

  /** The key-naming rule of `save`: the group's own name when its lower-case form is
      still free, otherwise the name followed by the smallest index (counting from 0)
      whose lower-case form is free. */
  ghost predicate KeyChosen(key: string, base: string, taken: set<string>) {
    if Lower(base) !in taken then
      key == base
    else
      exists i: nat :: key == Candidate(base, i) && Lower(key) !in taken &&
        forall j :: 0 <= j < i ==> Lower(Candidate(base, j)) in taken
  }

  /** The lower-cased forms of the first n alternative keys. */
  ghost function CandidateKeys(base: string, n: nat): (r: set<string>) {
    if n == 0 then {} else CandidateKeys(base, n - 1) + {Lower(Candidate(base, n - 1))}
  }

  lemma {:induction false} CandidateKeysExclude(base: string, n: nat, m: nat)
    requires n <= m
    ensures Lower(Candidate(base, m)) !in CandidateKeys(base, n)
  {
    if n > 0 {
      CandidateKeysExclude(base, n - 1, m);
      if Lower(Candidate(base, m)) == Lower(Candidate(base, n - 1)) {
        SuffixInjective(base, m, n - 1);
      }
    }
  }

  /** The first n alternative keys are pairwise different after lower-casing. */
  lemma {:induction false} CandidateKeysSize(base: string, n: nat)
    ensures |CandidateKeys(base, n)| == n
  {
    if n > 0 {
      CandidateKeysSize(base, n - 1);
      CandidateKeysExclude(base, n - 1, n - 1);
    }
  }

  lemma {:induction false} CandidateKeysWithin(base: string, n: nat, taken: set<string>)
    requires forall j :: 0 <= j < n ==> Lower(Candidate(base, j)) in taken
    ensures CandidateKeys(base, n) <= taken
  {
    if n > 0 {
      CandidateKeysWithin(base, n - 1, taken);
    }
  }

  /** Pigeonhole: a set of k used keys can block at most k alternative keys, so one of
      the first k + 1 candidates is always free. */
  lemma Pigeonhole(base: string, taken: set<string>, n: nat)
    requires forall j :: 0 <= j < n ==> Lower(Candidate(base, j)) in taken
    ensures n <= |taken|
  {
    CandidateKeysSize(base, n);
    CandidateKeysWithin(base, n, taken);
    var c := CandidateKeys(base, n);
    assert taken == c + (taken - c);
  }

  /** The loop of `save` that tries `base + i` for i = start, start + 1, ... and stops
      at the first free key. It never needs more than |taken| + 1 tries. */
  function FirstFreeIndex(base: string, taken: set<string>, start: nat): (r: nat)
    requires start <= |taken|
    requires forall j :: 0 <= j < start ==> Lower(Candidate(base, j)) in taken
    ensures start <= r <= |taken|
    ensures Lower(Candidate(base, r)) !in taken
    ensures forall j :: 0 <= j < r ==> Lower(Candidate(base, j)) in taken
    decreases |taken| - start
  {
    if Lower(Candidate(base, start)) !in taken then
      start
    else
      Pigeonhole(base, taken, start + 1);
      FirstFreeIndex(base, taken, start + 1)
  }

  /** The section key `save` chooses for a group named `base`, given the lower-cased
      keys already written. */
  function KeyFor(base: string, taken: set<string>): (key: string)
    ensures KeyChosen(key, base, taken)
    ensures Lower(key) !in taken
  {
    if Lower(base) !in taken then
      base
    else
      var i := FirstFreeIndex(base, taken, 0);
      Candidate(base, i)
  }

  /** Two groups named "inv" are written under "inv" and "inv0". */
  lemma KeyCollisionExample()
    ensures KeyFor("inv", {}) == "inv"
    ensures KeyFor("inv", {"inv"}) == "inv0"
  {
    assert Lower("inv") == "inv";
    assert NatToString(0) == "0";
    assert Lower("inv0") == "inv0";
  }

  /** A section describes a group: `folder` is the canonical world and `worlds` lists
      every member exactly once. */
  predicate Describes(sec: Section, g: Group) {
    sec.folder == g.canonical && Distinct(sec.worlds) && Elems(sec.worlds) == g.members
  }

  /** No two sections have keys that are equal up to case. */
  predicate UniqueKeys(d: Document) {
    forall i, j :: 0 <= i < j < |d| ==> Lower(d[i].key) != Lower(d[j].key)
  }

  /** The visiting order covers exactly the groups of `visited` that require saving,
      each once. */
  ghost predicate OrderCovers(s: Registry, visited: set<GroupId>, order: seq<GroupId>) {
    && Distinct(order)
    && (forall i :: 0 <= i < |order| ==>
          order[i] in visited && order[i] in s.arena && IsRequiredSaving(s.arena[order[i]]))
    && (forall id :: id in visited && id in s.arena && IsRequiredSaving(s.arena[id]) ==> id in order)
  }

  /** Section i describes the i-th visited group, under the key the naming rule
      chooses against the keys of the sections before it; no two keys are equal up to
      case. */
  ghost predicate SectionsFor(s: Registry, d: Document, order: seq<GroupId>) {
    && |d| == |order|
    && (forall i :: 0 <= i < |order| ==> order[i] in s.arena)
    && SectionsDescribe(s, d, order)
    && SectionsKeyed(s, d, order)
    && UniqueKeys(d)
  }

  ghost predicate SectionsDescribe(s: Registry, d: Document, order: seq<GroupId>)
    requires |d| == |order| && forall i :: 0 <= i < |order| ==> order[i] in s.arena
  {
    forall i :: 0 <= i < |d| ==> Describes(d[i], s.arena[order[i]])
  }

  ghost predicate SectionsKeyed(s: Registry, d: Document, order: seq<GroupId>)
    requires |d| == |order| && forall i :: 0 <= i < |order| ==> order[i] in s.arena
  {
    forall i :: 0 <= i < |d| ==> KeyChosen(d[i].key, s.arena[order[i]].name, UsedKeys(d[..i]))
  }

  /** `d` is what `save` writes for registry `s` when it visits the groups that
      require saving in the order `order`: one section per live group with more
      than one member, each describing its group, keys chosen by the naming rule
      against the keys written before it, and no two keys equal up to case. */
  ghost predicate SavedAs(s: Registry, d: Document, order: seq<GroupId>) {
    OrderCovers(s, s.live, order) && SectionsFor(s, d, order)
  }

  /** `new ArrayList(worlds)`: the members as a list, in iteration order. */
  method ListOf(ws: set<string>) returns (xs: seq<string>)
    ensures Distinct(xs) && Elems(xs) == ws
  {
    xs := [];
    var pending := ws;
    while pending != {}
      invariant pending <= ws
      invariant Distinct(xs)
      invariant forall x :: x in xs <==> x in ws - pending
      decreases pending
    {
      var w :| w in pending;
      assert w !in xs;
      xs := xs + [w];
      pending := pending - {w};
    }
  }

  lemma UsedKeysSnoc(d: Document, sec: Section)
    ensures UsedKeys(d + [sec]) == UsedKeys(d) + {Lower(sec.key)}
  {
    var d' := d + [sec];
    assert forall i :: 0 <= i < |d| ==> d'[i] == d[i];
    assert d'[|d|] == sec;
  }

  /** Visiting a group that does not require saving adds nothing. */
  lemma OrderSkip(s: Registry, visited: set<GroupId>, order: seq<GroupId>, id: GroupId)
    requires OrderCovers(s, visited, order)
    requires id in s.arena && !IsRequiredSaving(s.arena[id])
    ensures OrderCovers(s, visited + {id}, order)
  {
  }

  /** Visiting a new group that requires saving appends it to the order. */
  lemma OrderAppend(s: Registry, visited: set<GroupId>, order: seq<GroupId>, id: GroupId)
    requires OrderCovers(s, visited, order)
    requires id !in visited && id in s.arena && IsRequiredSaving(s.arena[id])
    ensures OrderCovers(s, visited + {id}, order + [id])
  {
    var o := order + [id];
    assert forall i :: 0 <= i < |order| ==> o[i] == order[i];
    assert forall i :: 0 <= i < |order| ==> order[i] != id;
  }

  /** Appending a section for the next group with a key that is free and chosen by
      the naming rule keeps the sections consistent. */
  lemma SectionsAppend(s: Registry, d: Document, order: seq<GroupId>, id: GroupId, sec: Section)
    requires SectionsFor(s, d, order)
    requires id in s.arena && Describes(sec, s.arena[id])
    requires KeyChosen(sec.key, s.arena[id].name, UsedKeys(d))
    requires Lower(sec.key) !in UsedKeys(d)
    ensures SectionsFor(s, d + [sec], order + [id])
  {
    var d', o := d + [sec], order + [id];
    assert forall i :: 0 <= i < |d| ==> d'[i] == d[i] && o[i] == order[i];
    KeyedAppend(s, d, order, id, sec);
    UniqueKeysAppend(d, sec);
  }

  lemma KeyedAppend(s: Registry, d: Document, order: seq<GroupId>, id: GroupId, sec: Section)
    requires |d| == |order| && forall i :: 0 <= i < |order| ==> order[i] in s.arena
    requires SectionsKeyed(s, d, order)
    requires id in s.arena && KeyChosen(sec.key, s.arena[id].name, UsedKeys(d))
    ensures SectionsKeyed(s, d + [sec], order + [id])
  {
    var d', o := d + [sec], order + [id];
    assert d'[..|d|] == d;
    forall i | 0 <= i < |d'|
      ensures KeyChosen(d'[i].key, s.arena[o[i]].name, UsedKeys(d'[..i]))
    {
      if i < |d| {
        assert d'[i] == d[i] && o[i] == order[i] && d'[..i] == d[..i];
      }
    }
  }

  lemma UniqueKeysAppend(d: Document, sec: Section)
    requires UniqueKeys(d) && Lower(sec.key) !in UsedKeys(d)
    ensures UniqueKeys(d + [sec])
  {
    var d' := d + [sec];
    forall i, j | 0 <= i < j < |d'|
      ensures Lower(d'[i].key) != Lower(d'[j].key)
    {
      assert d'[i] == d[i];
      if j == |d| {
        assert Lower(d[i].key) in UsedKeys(d);
      } else {
        assert d'[j] == d[j];
      }
    }
  }

  /** `save()`: nothing is written before the first load. Otherwise the live groups
      are visited in iteration order and every group with more than one member gets
      a section with a unique key. The visiting order is returned as `order`. */
  method Save(s: Registry) returns (doc: Option<Document>, order: seq<GroupId>)
    requires s.live <= s.arena.Keys
    ensures doc.None? <==> !s.loaded
    ensures doc.None? ==> order == []
    ensures doc.Some? ==> SavedAs(s, doc.value, order)
  {
    if !s.loaded {
      return None, [];
    }
    var d: Document := [];
    var saved: set<string> := {};
    order := [];
    var pending := s.live;
    while pending != {}
      invariant pending <= s.live
      invariant saved == UsedKeys(d)
      invariant OrderCovers(s, s.live - pending, order)
      invariant SectionsFor(s, d, order)
      decreases pending
    {
      var id :| id in pending;
      ghost var visited := s.live - pending;
      pending := pending - {id};
      assert s.live - pending == visited + {id};
      var g := s.arena[id];
      if IsRequiredSaving(g) {
        var key := KeyFor(g.name, saved);
        var worlds := ListOf(g.members);
        var sec := Section(key, g.canonical, worlds);
        OrderAppend(s, visited, order, id);
        SectionsAppend(s, d, order, id, sec);
        UsedKeysSnoc(d, sec);
        d := d + [sec];
        order := order + [id];
        saved := saved + {Lower(key)};
      } else {
        OrderSkip(s, visited, order, id);
      }
    }
    doc := Some(d);
  }

  /** The world (a lower-cased key) is a member of a live group that requires
      saving. */
  ghost predicate Shared(s: Registry, w: string) {
    w in s.binding && s.binding[w] in s.live && s.binding[w] in s.arena &&
    w in s.arena[s.binding[w]].members && IsRequiredSaving(s.arena[s.binding[w]])
  }

  /** Some section of the document lists the world, up to case. */
  ghost predicate Listed(d: Document, w: string) {
    exists i :: 0 <= i < |d| && w in LowerSet(d[i].worlds)
  }

  /** A saved section lists exactly the members of its group, which are lower-cased. */
  lemma SectionKeys(s: Registry, d: Document, order: seq<GroupId>, i: nat)
    requires Inv(s) && SavedAs(s, d, order) && i < |d|
    ensures order[i] in s.live && order[i] in s.arena && IsRequiredSaving(s.arena[order[i]])
    ensures LowerSet(d[i].worlds) == s.arena[order[i]].members
  {
    var g := s.arena[order[i]];
    assert Describes(d[i], g);
    LowerSetLower(d[i].worlds);
  }

  /** The document `save` writes lists a world exactly when the world belongs to a
      live group with more than one member: a singleton group leaves no trace. */
  lemma SavedWorlds(s: Registry, d: Document, order: seq<GroupId>, w: string)
    requires Inv(s) && SavedAs(s, d, order)
    ensures Listed(d, w) <==> Shared(s, w)
  {
    if Listed(d, w) {
      var i :| 0 <= i < |d| && w in LowerSet(d[i].worlds);
      SectionKeys(s, d, order, i);
    }
    if Shared(s, w) {
      var id := s.binding[w];
      assert id in order;
      var i :| 0 <= i < |order| && order[i] == id;
      SectionKeys(s, d, order, i);
    }
  }
}

=== FILE: roundtrip.dfy ===
/** Saving and loading together: a registry written by `save` and read back by
    `load` into a fresh registry gives back every saved group that has a
    canonical world, with its members, its canonical world and the key it was
    written under. */
module RoundTrip {
  import opened Strings
  import opened Collections
  import opened Inventories
  import opened Persistence
  import opened Operations

  /** No section lists a world twice (up to case) and no two sections share a
      world. */
  ghost predicate Separate(d: seq<Section>) {
    && (forall i :: 0 <= i < |d| ==> DistinctIgnoreCase(d[i].worlds))
    && (forall i, j :: 0 <= i < j < |d| ==> LowerSet(d[i].worlds) !! LowerSet(d[j].worlds))
  }

  /** The document `save` writes is separate: each section lists the distinct,
      lower-cased members of its own group, and groups share no member. */
  lemma SavedSeparate(s: Registry, d: Document, order: seq<GroupId>)
    requires Inv(s) && SavedAs(s, d, order)
    ensures Separate(d)
  {
    forall i | 0 <= i < |d|
      ensures DistinctIgnoreCase(d[i].worlds)
    {
      SectionDistinct(s, d, order, i);
    }
    forall i, j | 0 <= i < j < |d|
      ensures LowerSet(d[i].worlds) !! LowerSet(d[j].worlds)
    {
      SectionKeys(s, d, order, i);
      SectionKeys(s, d, order, j);
      assert order[i] != order[j];
      GroupsDisjoint(s, order[i], order[j]);
    }
  }

  lemma SectionDistinct(s: Registry, d: Document, order: seq<GroupId>, i: nat)
    requires Inv(s) && SavedAs(s, d, order) && i < |d|
    ensures DistinctIgnoreCase(d[i].worlds)
  {
    var g := s.arena[order[i]];
    assert Describes(d[i], g);
    var ws := d[i].worlds;
    forall p, q | 0 <= p < q < |ws|
      ensures Lower(ws[p]) != Lower(ws[q])
    {
      assert ws[p] in g.members && ws[q] in g.members;
    }
  }

  /** Two different groups share no member. */
  lemma GroupsDisjoint(s: Registry, a: GroupId, b: GroupId)
    requires Inv(s) && a in s.arena && b in s.arena && a != b
    ensures s.arena[a].members !! s.arena[b].members
  {
    forall key | key in s.arena[a].members
      ensures key !in s.arena[b].members
    {
      assert s.binding[key] == a;
    }
  }

  /** Some accepted section lists the key. */
  lemma AllKeysWitness(a: seq<Section>, key: string) returns (j: nat)
    requires key in AllKeys(a)
    ensures j < |a| && key in LowerSet(a[j].worlds)
  {
    if key in LowerSet(a[|a| - 1].worlds) {
      j := |a| - 1;
    } else {
      j := AllKeysWitness(a[..|a| - 1], key);
    }
  }

  /** In a separate list every section is clean. */
  lemma SeparateClean(a: seq<Section>, k: nat)
    requires Separate(a) && k < |a|
    ensures Clean(a, k)
  {
    forall key | key in AllKeys(a[k + 1..])
      ensures key !in LowerSet(a[k].worlds)
    {
      var j := AllKeysWitness(a[k + 1..], key);
      assert a[k + 1..][j] == a[k + 1 + j];
    }
  }

  /** Appending a section that shares no world with the list keeps it separate. */
  lemma SeparateSnoc(p: seq<Section>, x: Section)
    requires Separate(p) && DistinctIgnoreCase(x.worlds)
    requires forall i :: 0 <= i < |p| ==> LowerSet(p[i].worlds) !! LowerSet(x.worlds)
    ensures Separate(p + [x])
  {
    var q := p + [x];
    forall i | 0 <= i < |q|
      ensures DistinctIgnoreCase(q[i].worlds)
    {
      if i < |p| { assert q[i] == p[i]; }
    }
    forall i, j | 0 <= i < j < |q|
      ensures LowerSet(q[i].worlds) !! LowerSet(q[j].worlds)
    {
      assert q[i] == p[i];
      if j < |p| { assert q[j] == p[j]; }
    }
  }

  /** Dropping sections keeps a document separate. */
  lemma {:induction false} AcceptedSeparate(d: Document)
    requires Separate(d)
    ensures Separate(Accepted(d))
    decreases |d|
  {
    if d != [] {
      var init, last := d[..|d| - 1], d[|d| - 1];
      assert Separate(init) by {
        forall i | 0 <= i < |init| ensures init[i] == d[i] {}
      }
      AcceptedSeparate(init);
      if last.folder.Some? && last.worlds != [] {
        var p := Accepted(init);
        forall i | 0 <= i < |p|
          ensures LowerSet(p[i].worlds) !! LowerSet(last.worlds)
        {
          var j :| 0 <= j < |init| && init[j] == p[i];
          assert init[j] == d[j];
        }
        SeparateSnoc(p, last);
      }
    }
  }

  /** A section `load` accepts keeps its place among the accepted sections. */
  lemma {:induction false} AcceptedIndex(d: Document, i: nat) returns (k: nat)
    requires i < |d| && d[i].folder.Some? && d[i].worlds != []
    ensures k < |Accepted(d)| && Accepted(d)[k] == d[i]
    decreases |d|
  {
    var init := d[..|d| - 1];
    if i == |d| - 1 {
      k := |Accepted(init)|;
    } else {
      assert init[i] == d[i];
      k := AcceptedIndex(init, i);
    }
  }

  /** Loading a separate list of sections gives each its own live group: named
      after the key, holding exactly the listed worlds, with the section's folder
      as canonical world. */
  lemma LoadedSeparate(s0: Registry, r: Registry, a: seq<Section>, folders: set<string>)
    requires LoadedUpTo(s0, r, a, folders) && Separate(a)
    ensures AllRestored(r, s0.counter, a)
  {
    forall k | 0 <= k < |a|
      ensures RestoredAt(r, s0.counter + k, a[k])
    {
      SeparateClean(a, k);
      assert HoldsSection(r, s0.counter, a, k) && NamedAfter(r, s0.counter, a, k);
    }
  }

  /** Group `id` of `r` is live and is what section `sec` describes. */
  ghost predicate RestoredAt(r: Registry, id: GroupId, sec: Section) {
    id in r.live && id in r.arena && r.arena[id] == Group(sec.key, LowerSet(sec.worlds), sec.folder)
  }

  /** The k-th section of `a` is described by group `base + k` of `r`. */
  ghost predicate AllRestored(r: Registry, base: nat, a: seq<Section>) {
    forall k :: 0 <= k < |a| ==> RestoredAt(r, base + k, a[k])
  }

  /** Group `g` is back in `r` under the name `name`: some live group has that
      name and the members and canonical world of `g`. */
  ghost predicate Restored(r: Registry, name: string, g: Group) {
    exists id :: id in r.live && id in r.arena && r.arena[id] == g.(name := name)
  }

  /** Saving registry `s` and loading the document into a fresh registry restores
      every saved group that has a canonical world, under the key it was saved
      with. */
  lemma SaveThenLoad(s: Registry, d: Document, order: seq<GroupId>, r: Registry, folders: set<string>)
    requires Inv(s) && SavedAs(s, d, order)
    requires LoadedUpTo(Empty(), r, Accepted(d), folders)
    ensures forall i :: 0 <= i < |d| && d[i].folder.Some? ==> Restored(r, d[i].key, s.arena[order[i]])
  {
    SavedSeparate(s, d, order);
    AcceptedSeparate(d);
    LoadedSeparate(Empty(), r, Accepted(d), folders);
    assert Empty().counter == 0;
    SavedRestored(s, d, order, r);
  }

  lemma SavedRestored(s: Registry, d: Document, order: seq<GroupId>, r: Registry)
    requires Inv(s) && SavedAs(s, d, order)
    requires AllRestored(r, 0, Accepted(d))
    ensures forall i :: 0 <= i < |d| && d[i].folder.Some? ==> Restored(r, d[i].key, s.arena[order[i]])
  {
    SavedGroups(s, d, order);
    forall i | 0 <= i < |d| && d[i].folder.Some?
      ensures Restored(r, d[i].key, s.arena[order[i]])
    {
      SectionRestored(d, i, s.arena[order[i]], Accepted(d), r);
    }
  }

  /** Each saved section lists exactly the members of its group, which requires
      saving, and carries its canonical world as folder. */
  lemma SavedGroups(s: Registry, d: Document, order: seq<GroupId>)
    requires Inv(s) && SavedAs(s, d, order)
    ensures forall i :: 0 <= i < |d| ==>
      order[i] in s.arena && d[i].folder == s.arena[order[i]].canonical &&
      LowerSet(d[i].worlds) == s.arena[order[i]].members && IsRequiredSaving(s.arena[order[i]])
  {
    forall i | 0 <= i < |d|
      ensures order[i] in s.arena && d[i].folder == s.arena[order[i]].canonical
      ensures LowerSet(d[i].worlds) == s.arena[order[i]].members && IsRequiredSaving(s.arena[order[i]])
    {
      SectionKeys(s, d, order, i);
      assert Describes(d[i], s.arena[order[i]]);
    }
  }

  lemma SectionRestored(d: Document, i: nat, g: Group, a: seq<Section>, r: Registry)
    requires i < |d| && d[i].folder.Some?
    requires d[i].folder == g.canonical && LowerSet(d[i].worlds) == g.members && IsRequiredSaving(g)
    requires a == Accepted(d) && AllRestored(r, 0, a)
    ensures Restored(r, d[i].key, g)
  {
    assert d[i].worlds != [] by {
      var w :| w in g.members;
    }
    var k := AcceptedIndex(d, i);
    assert RestoredAt(r, k, d[i]);
  }
}

=== FILE: strings.dfy ===
/** Case-insensitive world names and the decimal rendering of the name counter.

    World names are compared case-insensitively throughout the registry: membership
    sets hold lower-cased names and the canonical world is matched with
    `EqualsIgnoreCase`. `Lower` is an ASCII lower-casing; the locale rules of the
    host platform are not modelled.
 */
module Strings {

  /** Lower-cases one ASCII letter and leaves every other character alone. */
  function LowerChar(c: char): (r: char)
    ensures 'A' <= c <= 'Z' ==> 'a' <= r <= 'z' && r as int - c as int == 'a' as int - 'A' as int
    ensures !('A' <= c <= 'Z') ==> r == c
  {
    if 'A' <= c <= 'Z' then (c as int - 'A' as int + 'a' as int) as char else c
  }

  /** The lower-case form of a name; the key under which a world is stored. */
  function Lower(s: string): (r: string)
    ensures |r| == |s|
  {
    if s == [] then [] else [LowerChar(s[0])] + Lower(s[1..])
  }

  /** Case-insensitive equality of two names. */
  predicate EqualsIgnoreCase(a: string, b: string) {
    Lower(a) == Lower(b)
  }

  lemma {:induction false} LowerIdempotent(s: string)
    ensures Lower(Lower(s)) == Lower(s)
  {
    if s != [] {
      LowerIdempotent(s[1..]);
      assert Lower(s)[1..] == Lower(s[1..]);
    }
  }

  lemma {:induction false} LowerConcat(a: string, b: string)
    ensures Lower(a + b) == Lower(a) + Lower(b)
  {
    if a != [] {
      assert (a + b)[1..] == a[1..] + b;
      LowerConcat(a[1..], b);
    } else {
      assert a + b == b;
    }
  }

  predicate IsDigit(c: char) {
    '0' <= c <= '9'
  }

  function DigitChar(d: nat): (c: char)
    requires d < 10
    ensures IsDigit(c)
  {
    ('0' as int + d) as char
  }

  /** The decimal rendering of `n`, as Java's string concatenation produces it. */
  function NatToString(n: nat): (r: string)
    ensures |r| >= 1
    ensures forall i :: 0 <= i < |r| ==> IsDigit(r[i])
    ensures r[|r| - 1] == DigitChar(n % 10)
    decreases n
  {
    if n < 10 then [DigitChar(n)] else NatToString(n / 10) + [DigitChar(n % 10)]
  }

  /** Lower-casing leaves a decimal rendering unchanged. */
  lemma {:induction false} LowerDigits(s: string)
    requires forall i :: 0 <= i < |s| ==> IsDigit(s[i])
    ensures Lower(s) == s
  {
    if s != [] {
      LowerDigits(s[1..]);
    }
  }

  /** Different numbers have different renderings. */
  lemma {:induction false} NatToStringInjective(a: nat, b: nat)
    requires NatToString(a) == NatToString(b)
    ensures a == b
    decreases a
  {
    var sa, sb := NatToString(a), NatToString(b);
    assert DigitChar(a % 10) == DigitChar(b % 10);
    assert a % 10 == b % 10;
    if a >= 10 && b >= 10 {
      assert NatToString(a / 10) == sa[..|sa| - 1];
      assert NatToString(b / 10) == sb[..|sb| - 1];
      NatToStringInjective(a / 10, b / 10);
    }
  }

  /** The key Lower(base + i) determines i: suffixed names never collide with each other. */
  lemma SuffixInjective(base: string, i: nat, j: nat)
    requires Lower(base + NatToString(i)) == Lower(base + NatToString(j))
    ensures i == j
  {
    LowerConcat(base, NatToString(i));
    LowerConcat(base, NatToString(j));
    LowerDigits(NatToString(i));
    LowerDigits(NatToString(j));
    var li := Lower(base) + NatToString(i);
    var lj := Lower(base) + NatToString(j);
    assert li[|Lower(base)|..] == NatToString(i);
    assert lj[|Lower(base)|..] == NatToString(j);
    NatToStringInjective(i, j);
  }
}

=== FILE: wrappers.dfy ===
/** Optional values and error results. */
module Wrappers {

  /** A value that may be absent; stands for a nullable Java reference. */
  datatype Option<+T> = None | Some(value: T)

  /** The outcome of an operation that can fail with an error value. */
  datatype Result<+R, +E> = Success(value: R) | Failure(error: E)
}
